=== FILE: README.md ===
# mac2vendor in Dafny

A model of mac2vendor, a Go tool that resolves the vendor of a network card from its MAC address.
It covers the registry-to-lookup pipeline in its three copies, and the decisions made by the two
web handlers.

- **Library** (`mac2vendor.go`). `Load` downloads the IEEE OUI registry (`oui.txt`) when the cache
  file is missing and `transform`s it into `key<TAB>vendor` records. It then reads them back with
  `initCache`. `Query` and `Lookup` answer from the resulting table.
- **`update` command** (`actions/update.go`). It builds the same records and hands the mapping to a
  code generator. It downloads only on HTTP 200, and it deletes both `oui.txt` and the record file
  on the way out.
- **Standalone `update`** (`cmd/cli/mac2vendor/update.go`). This is the same pipeline with a third
  variant of the registry pattern and of the clean-up.
- **Web handlers** (`actions/serve.go`, `cmd/mac2vendor/handlers.go`). Each checks the method,
  extracts the address, builds the `Mac2Vnd` response record and chooses a status code.

## Modules

| file | module | what it holds |
|---|---|---|
| base.dfy | `Base` | options, Go error values and their `Error()` text, the file system (`Disk`), byte streams and how they end (`Source`), the outcome of `http.Get` (`Fetch`) |
| text.dfy | `Text` | the character classes used, ASCII `strings.ToLower`, `strings.TrimSpace` |
| lines.dfy | `LineReader` | `bufio.Reader.ReadBytes('\n')` as a split into complete lines and the tail delivered with `io.EOF` |
| delimit.dfy | `KeyFormat` | `delimit`, the same in all three copies, and its inverse (strip the colons) |
| pattern.dfy | `Pattern` | the registry pattern `\s*([0-9a-zA-Z]+)[\s]*\(base 16\)[\s]*(CAPTURE)`, a hand-written leftmost-first matcher for it, and a proof that it returns the match Go's `regexp` reports |
| hwaddr.dfy | `HardwareAddr` | `net.HardwareAddr.String` and an EUI-48 address parser |
| cache.dfy | `CacheFile` | the record format and `initCache` |
| registry.dfy | `Registry` | what the three transforms share: matched lines, record keys, the read-back of written records |
| mac2vendor.dfy | `Mac2Vendor` | the library: `downloadMacTable`, `transform`, `Load`, `Query`, `Lookup` |
| actions_update.dfy | `ActionsUpdate` | `actions/update.go` |
| cli_update.dfy | `CliUpdate` | `cmd/cli/mac2vendor/update.go` |
| http.dfy | `Http` | requests, replies and `http.Error` |
| serve.dfy | `ActionsServe` | the handler of `actions/serve.go` |
| handlers.dfy | `ServerHandlers` | the handler of `cmd/mac2vendor/handlers.go` |

The file system is a map from path to `Source`. A path that is absent is one for which `os.Stat`
reports `IsNotExist`. Reading a `Source` delivers its data and then either `io.EOF` or a read error.
The network is a `Fetch` parameter: a transport error, or a status code with a body. A panic
(`parts[1]` out of range in `initCache`, `r.URL.Path[1:]` on an empty path) is an explicit outcome:
`Panicked` or `Crash`.

Behaviour of the code that the model keeps, some of it easy to miss:

- An unregistered prefix is not an error. `Query` returns "" (mac2vendor.go:59-62) and `Lookup`
  returns it with a nil error (mac2vendor.go:72). `actions/serve.go` then answers 200 with an empty
  vendor (actions/serve.go:109, 119).
- Keys have the form `xx:xx:xx`, lower case: `Query` looks up `mac[:3].String()` (mac2vendor.go:58).
  A MAC written without separators is rejected by `net.ParseMAC` (mac2vendor.go:68-70).
- In `initCache`, a cache line without a tab panics on `parts[1]` (mac2vendor.go:172-173).
- The library and the standalone `update` do not check the HTTP status (mac2vendor.go:88-97,
  cmd/cli/mac2vendor/update.go:55-70). `actions/update.go` does (actions/update.go:75).
- The two `update` copies store the vendor untrimmed (actions/update.go:134,
  cmd/cli/mac2vendor/update.go:114).
- A damaged cache file is read as it is, never fetched again: only a missing file triggers the
  download (mac2vendor.go:34, 47-53).
- `cmd/mac2vendor/handlers.go` never answers 400: every lookup error with a non-empty message gets 404
  (cmd/mac2vendor/handlers.go:52-55), where `actions/serve.go` answers 400 for an address error
  (actions/serve.go:109-115).
- `actions/serve.go` calls a package-level `mac2vendor.Lookup` (actions/serve.go:99), which
  `mac2vendor.go` does not define: there `Lookup` is a method (mac2vendor.go:67). The handlers
  therefore take the lookup as a parameter. `ActionsServe.ServeLibrary` plugs in the library's
  method.

## Model

| member | source | states |
|---|---|---|
| LineReader.Lines | mac2vendor.go:129-136 | each string `ReadBytes('\n')` hands over with a nil error is one complete line: it ends in its only line feed |
| LineReader.Tail | mac2vendor.go:130-133 | the text `ReadBytes` hands over together with `io.EOF` holds no line feed |
| LineReader.LinesThenTail | mac2vendor.go:163-170 | the complete lines the reader hands over with a nil error, followed by the text it hands over with `io.EOF`, are exactly the stream: nothing is lost or reordered |
| LineReader.LinesOfConcat | mac2vendor.go:163-170 | reading a text made of complete lines plus a fragment with no line feed gives back those lines, and the fragment as the final text |
| LineReader.LinesIgnoreTail | mac2vendor.go:130-133 | text after the last line feed changes no complete line: the loops stop at `io.EOF` before using it |
| Text.ToLower | mac2vendor.go:140 | no upper-case ASCII letter survives; a character changes only if it is upper case, and then to its lower-case letter; the length is kept |
| Text.ToLowerIdempotent | mac2vendor.go:140 | lower-casing twice gives the same text as lower-casing once, so an already lower-case key is left alone |
| Text.TrimSpaceOf | mac2vendor.go:173 | `strings.TrimSpace` removes exactly the surrounding white space: a middle with no white space at either end comes back whole |
| Text.TrimSpaceDropsTrailingSpace | mac2vendor.go:173 | a trailing white-space character, such as the record's line feed, never reaches the trimmed value |
| Text.TrimSpace | mac2vendor.go:173 | the trimmed vendor is no longer than the text and neither begins nor ends with white space |
| KeyFormat.Delimit | mac2vendor.go:148-157 | `delimit` inserts `:` after the characters at positions 1 and 3 only, and copies everything else unchanged: a prefix shorter than 2 is kept, one of 2 or 3 gains one colon, a longer one two |
| KeyFormat.DelimitSixExample | mac2vendor.go:148-157 | `"aabbcc"` becomes `"aa:bb:cc"` |
| KeyFormat.DelimitLongerExample | mac2vendor.go:148-157 | the longer `"0050c2ab"` becomes `"00:50:c2ab"`, without truncation |
| KeyFormat.DelimitRoundTrip | actions/update.go:173-182 | deleting every `:` from `delimit(p)` gives back `p` for any colon-free `p` |
| KeyFormat.DelimitInjective | cmd/cli/mac2vendor/update.go:147-156 | two different colon-free prefixes never get the same key |
| KeyFormat.DelimitLength | mac2vendor.go:148-157 | the output is the input plus one colon per boundary it reaches, so nothing is truncated |
| KeyFormat.KeyLengthEight | mac2vendor.go:20 | with `prefixLength` 5, a key has 8 characters exactly when its prefix has 6 |
| KeyFormat.DelimitLowerCommute | cmd/cli/mac2vendor/update.go:114-115 | `ToLower(delimit(p)) == delimit(ToLower(p))` for every `p` |
| KeyFormat.KeyAlphabet | actions/update.go:113-133 | the key built from an alphanumeric prefix consists of lower-case letters, digits and `:` |
| Pattern.MatchAtIsPreferred | mac2vendor.go:123 | from a given start, the matcher finds a match whenever the pattern has one there, and it finds the one a backtracking engine tries first |
| Pattern.Find | mac2vendor.go:138-139 | the matcher reports a match exactly when the pattern occurs in the line; that match beats every other under leftmost-first order |
| Pattern.Submatch | mac2vendor.go:138-139 | no submatches exactly when nothing matches; otherwise the prefix is a non-empty alphanumeric run, the vendor is drawn from the capture's class, and it is non-empty for a `+` capture; both are the groups of a match that beats every other match (the leftmost-first one `Find` reports) |
| Pattern.AnyRestSkipsSpace | mac2vendor.go:123 | with `(.*)` the vendor starts at the first non-white-space character after `(base 16)` and runs up to the line feed |
| Pattern.BareMarkerNoCrLf | actions/update.go:113 | with `([^\r\n]+)`, a line with only line-ending characters after `(base 16)` does not match |
| Pattern.NoCrKeepsRest | cmd/cli/mac2vendor/update.go:95 | with `([^\r]+)`, on a line without carriage returns the vendor runs to the end of the line, including its line feed |
| Pattern.BareMarkerNoCr | cmd/cli/mac2vendor/update.go:95 | with `([^\r]+)`, a bare `(base 16)` line ending in LF or CRLF still matches, and its vendor is the line feed alone |
| HardwareAddr.ParseMac48 | mac2vendor.go:68-71 | an address parses exactly when it is six hex pairs joined by one separator, `:` or `-`; otherwise the error is an `AddrError` naming the text |
| HardwareAddr.ParsePrinted | mac2vendor.go:58 | `HardwareAddr.String` of six octets parses back to the same octets |
| HardwareAddr.ParseIgnoresCase | mac2vendor.go:68 | upper- and lower-case hex digits give the same address |
| HardwareAddr.ParseIgnoresSeparator | mac2vendor.go:68 | the hyphenated form of a colon-separated address gives the same octets |
| HardwareAddr.ParseRejects | mac2vendor.go:68-71 | the empty text, separator-free hex and mixed separators are rejected |
| HardwareAddr.AddrString | mac2vendor.go:58 | `HardwareAddr.String` of n octets has 3n-1 characters |
| HardwareAddr.AddrStringAt | mac2vendor.go:58 | octet g is printed at positions 3g and 3g+1 as its two hex digits, and a colon follows every octet but the last |
| CacheFile.SplitTab | mac2vendor.go:172 | `SplitN(line, "\t", 2)` gives a second part exactly when the line has a tab; the parts rebuild the line, and the first has no tab |
| CacheFile.SplitTabOf | mac2vendor.go:172 | a tab-free key followed by a tab and any rest splits back into that key and that rest |
| CacheFile.Record | mac2vendor.go:140 | the reader's split at the first tab takes a record `key TAB vendor LF` apart again into a tab-free key and the vendor with its line feed |
| CacheFile.Cache | mac2vendor.go:163-174 | the read loop survives exactly when every complete line has a tab |
| CacheFile.StoreLastWins | mac2vendor.go:173 | the table's keys are exactly the keys assigned, and each holds the value of its last assignment |
| CacheFile.CacheStores | mac2vendor.go:163-174 | when every line has a tab, reading is assigning (key before the first tab, trimmed rest) in line order |
| CacheFile.InitCache | mac2vendor.go:160-175 | panics exactly when a complete line lacks a tab; a failure is always a read error other than EOF, returned as it is; at EOF the result is never a failure (which table comes back is stated by CacheFile.CacheStores and CacheFile.ReadRecords) |
| CacheFile.RecordReadsBack | mac2vendor.go:140 | a written record is one complete line whose key reads back unchanged, with its vendor trimmed |
| CacheFile.ReadRecords | mac2vendor.go:160-175 | a file of records reads back as the table of their keys and trimmed vendors, the last record for a key winning |
| CacheFile.InitCacheIgnoresTail | mac2vendor.go:164-167 | text after the last line feed of the cache file never reaches the table |
| CacheFile.ReadErrorDiscards | mac2vendor.go:168-169 | a read error discards the mapping read so far |
| Registry.Matches | mac2vendor.go:129-142 | no more entries than complete lines, each with an alphanumeric prefix and a vendor of the capture's class; which lines contribute, and in what order, is `Registry.MatchesSnoc` |
| Registry.MatchesSnoc | actions/update.go:131 | a line that does not match adds nothing, and a line that matches adds its own submatches at the end |
| Registry.UnterminatedLineDropped | mac2vendor.go:130-133 | the unterminated last line of the registry is never converted |
| Registry.RegistryKey | cmd/cli/mac2vendor/update.go:114-115 | the two ways of building a key agree on an alphanumeric prefix, and the key consists of lower-case letters, digits and `:` |
| Registry.RecordsReadBack | mac2vendor.go:140 | writing one-line pairs as records and reading them back gives the pairs' table with trimmed vendors |
| Mac2Vendor.EntriesWritable | mac2vendor.go:140 | every record the library writes is a single line, with a tab-free key |
| Mac2Vendor.TransformAppendsLine | mac2vendor.go:129-141 | each further complete line adds exactly one record `ToLower(delimit(prefix)) TAB vendor LF` when the pattern occurs in it, and nothing otherwise |
| Mac2Vendor.TransformThenInitCache | mac2vendor.go:107-175 | reading back what `transform` wrote gives every matched line's key with its trimmed vendor, the last line winning, even when the registry read failed part-way |
| Mac2Vendor.Convert | mac2vendor.go:129-142 | the output file holds complete lines only, at most one per complete registry line; the loop returns nil exactly when the reader ends with `io.EOF` |
| Mac2Vendor.ConvertedLines | mac2vendor.go:140 | reading the output back line by line gives exactly the records written, with no unterminated rest |
| Mac2Vendor.DownloadMacTable | mac2vendor.go:76-104 | skipped when dst exists; otherwise dst is created before the request, and left empty when the request fails or filled with the body whatever the status |
| Mac2Vendor.Transform | mac2vendor.go:107-146 | does nothing when dst exists; with src missing, fails and creates nothing; otherwise writes the converted records to dst, and fails exactly when the registry read failed |
| Mac2Vendor.Load | mac2vendor.go:33-54 | with the cache file present, reads it and fetches nothing; fetches exactly when both the cache and `/tmp/oui.txt` are missing; a returned table is `initCache` of the cache file, which exists |
| Mac2Vendor.Build | mac2vendor.go:38-53 | a download error is returned before any transform; a returned table is `initCache` of the file the transform left at `src` |
| Mac2Vendor.Query | mac2vendor.go:57-63 | the answer is the vendor stored under `xx:xx:xx`, the delimited lower-case hex of the address's first three octets, and `""` when no vendor is stored there; a non-empty answer is a vendor from the table |
| Mac2Vendor.QueryReadsOui | mac2vendor.go:58 | only the first three octets of an address take part in a query |
| Mac2Vendor.Lookup | mac2vendor.go:67-73 | returns an error exactly when parsing fails, and then with the empty vendor; otherwise it returns the query's answer and a nil error |
| Mac2Vendor.QueryKey | mac2vendor.go:58 | `mac[:3].String()` is `delimit` of the six lower-case hex digits of the first three octets, 8 characters long |
| Mac2Vendor.OnlySixDigitPrefixesResolve | mac2vendor.go:57-157 | a registry key equals some query key only when its prefix has six characters that spell that address's first three octets, in either case |
| Mac2Vendor.SpelledPrefixResolves | mac2vendor.go:58-140 | conversely, a prefix that spells the first three octets, in either case, is converted to the query key |
| Mac2Vendor.PrefixKeyIff | mac2vendor.go:58-140 | a registry prefix is converted to an address's query key if and only if, lower-cased, it spells that address's first three octets |
| Mac2Vendor.RegisteredPrefixResolves | mac2vendor.go:57-175 | after transform and initCache, an address whose key some registry line carries resolves to the trimmed vendor of the last such line |
| Mac2Vendor.SpelledLineResolves | mac2vendor.go:57-175 | stated on the registry text: the last matched line whose prefix spells the address's first three octets gives the answer, its vendor trimmed |
| Mac2Vendor.UnregisteredIsNotAnError | mac2vendor.go:67-73 | a parsable address whose prefix no registry line carries gives `("", nil)` |
| Mac2Vendor.LookupIgnoresSeparator | mac2vendor.go:67-73 | colon and hyphen spellings of an address get the same answer |
| Mac2Vendor.LookupRejectsMalformed | mac2vendor.go:67-71 | text that is not an address gives `""` and an `AddrError` naming the text |
| Mac2Vendor.LoadSkipsWhenPresent | mac2vendor.go:33-54 | with the cache file present, nothing is downloaded or rewritten |
| Mac2Vendor.LoadIgnoresStatus | mac2vendor.go:88-100 | from an empty start, any response body is used whatever its status, and the table holds exactly what its lines convert to |
| Mac2Vendor.UnreachableRegistryPoisonsNextLoad | mac2vendor.go:79-91 | a failed request leaves an empty `/tmp/oui.txt`; the next `Load` fetches nothing and returns an empty table |
| Mac2Vendor.InterruptedTransformPersists | mac2vendor.go:129-136 | a registry read error leaves a partial cache file that later loads serve without fetching again |
| Mac2Vendor.CorrectedDownload | mac2vendor.go:76-104 | requesting before creating dst: a failed request leaves the file system unchanged, and every response is handled as before |
| Mac2Vendor.CorrectedLoad | mac2vendor.go:33-54 | `Load` with the corrected download; it agrees with `Load` whenever a response arrives, and a returned table is `initCache` of the cache file |
| Mac2Vendor.CorrectedLoadRetries | mac2vendor.go:79-91 | with the corrected order, a failed request leaves nothing behind and the next load fetches again |
| ActionsUpdate.EntriesShape | actions/update.go:113-135 | every pair is one record line; its key is the one the library builds for the same prefix; its vendor is non-empty and free of `\r` and `\n` |
| ActionsUpdate.Transform | actions/update.go:96-144 | the generator runs exactly when dst is missing and src reads cleanly to EOF, with the mapping of all matched lines; a read error is returned as it is, before the generator; dst never survives |
| ActionsUpdate.DownloadMacTable | actions/update.go:65-93 | skipped when dst exists; dst is created only on status 200, holding the body; any other status or a transport error is an error |
| ActionsUpdate.Load | actions/update.go:46-62 | does nothing when the record file exists; otherwise fetches unless `oui.txt` is there, and removes `oui.txt` on every way out |
| ActionsUpdate.LoadFromScratch | actions/update.go:46-62 | a 200 response from an empty start generates the mapping of the body's matched lines, and returns the generator's error |
| ActionsUpdate.WrittenReadsBack | actions/update.go:133-135 | the records written read back as the generated mapping with trimmed vendors |
| ActionsUpdate.StatusGate | actions/update.go:75-79 | any status other than 200 is an error, and no file is created and no mapping generated |
| ActionsUpdate.EveryRunRefetches | actions/update.go:50-120 | an update from an empty start leaves the record file and `oui.txt` absent again (the modelled disk is unchanged), so the next update downloads again |
| ActionsUpdate.GeneratedLastWins | actions/update.go:134 | the generated mapping holds exactly the matched keys, each with the vendor of its last line |
| ActionsUpdate.BareLineAddsNothing | actions/update.go:113 | a line with nothing but line endings after `(base 16)` contributes no pair |
| CliUpdate.KeysAgree | cmd/cli/mac2vendor/update.go:114-115 | the mapping and the written records use the same keys |
| CliUpdate.Transform | cmd/cli/mac2vendor/update.go:78-145 | the template step runs exactly when dst is missing and src reads cleanly; a read error returns at once and leaves dst in place; a clean read removes dst |
| CliUpdate.DownloadMacTable | cmd/cli/mac2vendor/update.go:49-75 | skipped when dst exists; the request comes first, and dst is created with the body of any response whatever its status |
| CliUpdate.Load | cmd/cli/mac2vendor/update.go:31-46 | does nothing when the record file exists; fetches exactly when both the record file and `/tmp/oui.txt` are missing |
| CliUpdate.LoadIgnoresStatus | cmd/cli/mac2vendor/update.go:55-72 | any response body becomes the registry, whatever its status, and its lines become the mapping |
| CliUpdate.UnreachableLeavesNothing | cmd/cli/mac2vendor/update.go:55-58 | a transport error leaves no file behind, so the next run requests again |
| CliUpdate.ReadErrorStrandsRecords | cmd/cli/mac2vendor/update.go:103-119 | a read error part-way leaves the partial record file; every later run does nothing, reports success and never generates a mapping |
| CliUpdate.WrittenReadsBack | cmd/cli/mac2vendor/update.go:112-115 | when no vendor holds a line feed, the records written read back as the mapping with trimmed vendors |
| CliUpdate.LfVendorKeepsNewline | cmd/cli/mac2vendor/update.go:95 | on a line ending in a bare line feed, the captured vendor ends with that line feed |
| CliUpdate.LfLineCounterexample | cmd/cli/mac2vendor/update.go:95 | on `"aabbcc (base 16) Acme\n"` the vendor captured here ends in a line feed; `([^\r\n]+)` captures it without one |
| CliUpdate.BareLineVendorIsNewline | cmd/cli/mac2vendor/update.go:95 | a bare `(base 16)` line still produces a pair, and its vendor is `"\n"` |
| CliUpdate.CrLfVendorOneLine | cmd/cli/mac2vendor/update.go:95 | on a line ending in CRLF, `([^\r]+)` stops at the carriage return, so the vendor holds no line ending, unless it is the line feed alone |
| CliUpdate.CrLfVendorsOnOneLine | cmd/cli/mac2vendor/update.go:95-115 | a registry whose lines all end in CRLF and whose lines never capture the lone line feed gives vendors free of line ends, so the written records read back |
| CliUpdate.CorrectedVendorsClean | cmd/cli/mac2vendor/update.go:95-115 | with the capture `([^\r\n]+)`, every vendor is non-empty and free of line endings, and the records read back as the mapping with trimmed vendors |
| Http.HttpError | actions/serve.go:108-115 | the reply of `http.Error` carries the given status, a plain-text content type that replaces the JSON one set just before, and the message followed by a line feed |
| ActionsServe.NewMac2Vnd | actions/serve.go:48-58 | the record keeps the error as given; with an error the address and vendor are empty, and without one they are the ones looked up |
| ActionsServe.ErrorStatus | actions/serve.go:109-114 | an error is sent with 400 exactly when it is a `*net.AddrError`, and with 404 exactly when it is not |
| ActionsServe.Handle | actions/serve.go:92-122 | a non-GET request gets 405 and no lookup; a GET looks up the path without its leading `/`; only a GET with an empty path panics |
| ActionsServe.StatusClassification | actions/serve.go:108-121 | for an encodable record: 200 exactly when the lookup succeeded, with the JSON body; 400 exactly for an address error; 404 exactly for any other error |
| ActionsServe.EncodeFailureIs500 | actions/serve.go:101-106 | a record that cannot be encoded gets a 500 carrying the encoder's message, before any status classification |
| ActionsServe.EmptyAddressIsBadRequest | actions/serve_test.go:30-34 | `GET /` against the library's lookup is answered with 400 |
| ActionsServe.UnregisteredIsOk | actions/serve.go:99-121 | a well-formed address with an unregistered prefix is answered with 200 and an empty vendor |
| ServerHandlers.NewMac2Vnd | cmd/mac2vendor/handlers.go:18-23 | with an error the record carries only its message; otherwise the address and vendor, with an empty message |
| ServerHandlers.Handle | cmd/mac2vendor/handlers.go:34-58 | a non-GET request gets 405 and no lookup; a GET looks up the path without its leading `/`; only a GET with an empty path panics |
| ServerHandlers.NeverBadRequest | cmd/mac2vendor/handlers.go:46-57 | an encodable GET is answered with 200 or 404, never 400; it is 404 exactly when the lookup failed with a non-empty message |
| ServerHandlers.EncodeFailureIs500 | cmd/mac2vendor/handlers.go:46-49 | a record that cannot be encoded gets a 500 carrying the encoder's message |
| ServerHandlers.SilentErrorIsOk | cmd/mac2vendor/handlers.go:18-57 | a lookup error whose message is empty is served as a 200 success, with an empty record |

## Left out

- Network and file I/O (`http.Get`, `os.Create`/`Open`/`Stat`/`Remove`, `io.Copy`, buffered writers and their flushing) are not modelled as operations. Their outcomes are parameters or map updates: `Disk`, `Source` and `Fetch`. The model does not cover a failing `os.Create`, an `os.Stat` error other than "does not exist", or a failing `os.Open` of an existing file.
- Logging (`log.Println`), the `logger` middleware and `interceptor` (actions/serve.go:60-89, cmd/mac2vendor/handlers.go:26-31), and server start-up are not modelled. They do not affect any reply.
- `generateMapping` and the inline template code (actions/update.go:146-171, cmd/cli/mac2vendor/update.go:120-142) read, render and format Go source with library code. Each is a parameter that receives the mapping and returns an error.
- The `mapping.go` file the template step writes (actions/update.go:170, cmd/cli/mac2vendor/update.go:142) is not on `Disk`, because the template step is a parameter. Statements that a run leaves the disk unchanged refer to the modelled files only, that is the record file and `oui.txt`.
- `json.Marshal` is an `Encoder` parameter: it returns a text or an error. The JSON text is not modelled.
- `net.ParseMAC` belongs to Go's standard library. `Lookup` takes the parser as a parameter, and `HardwareAddr.ParseMac48` models only its EUI-48 colon and hyphen forms. The 8- and 20-octet forms and the dotted form are not modelled.
- The package-level `mac2vendor.Lookup` and `mac2vnd` used by the handlers are not part of this model. The handlers take the lookup as a parameter.
- `Mac2Vendor.DownloadMacTable`, `Mac2Vendor.Transform`, `Mac2Vendor.Build`: the text of errors built with `fmt.Errorf` (which the library passes extra arguments to) is not modelled. Only the fact that an error occurs is kept.
- `Text.ToLower`: only ASCII letters are lowered, because `strings.ToLower` on other Unicode letters has no bearing on hex prefixes or registry keys.
- Strings are sequences of characters, not UTF-8 bytes. `delimit` counts byte offsets in Go; the two agree on the ASCII prefixes the pattern captures.
- actions/lookup.go, actions/actions.go and the two `main.go` files hold command-line plumbing and locking, and are not part of this model.
- `Pattern` models only the registry line pattern, with its three vendor captures. It is not a general regular-expression engine.

## Findings

| source | as written | input that shows it | evidently intended | confidence | as-written member | corrected member |
|---|---|---|---|---|---|---|
| mac2vendor.go:82-90 | `/tmp/oui.txt` is created before the registry is requested, and left empty when the request fails | an unreachable registry on the first `Load`, then any second `Load` | request first, create the file only once a response arrives, as both later copies of `downloadMacTable` do | high (not executed) | Mac2Vendor.UnreachableRegistryPoisonsNextLoad | Mac2Vendor.CorrectedLoadRetries |
| cmd/cli/mac2vendor/update.go:95 | the vendor capture `([^\r]+)` runs through the line feed of an LF-terminated line, so the mapping value ends in `\n` and the record line is followed by an empty line | `aabbcc (base 16) Acme\n` | stop at the line ending, as `([^\r\n]+)` in actions/update.go:113 does | high (not executed) | CliUpdate.LfLineCounterexample | CliUpdate.CorrectedVendorsClean |

=== FILE: actions_update.dfy ===
/**
 The `update` command of the command-line tool (actions/update.go): when `mac2vnd.dat` is missing it
 downloads the registry into `oui.txt` (only on HTTP 200), transforms it, and hands the resulting
 mapping to `generateMapping`, which renders `mapping.go` from a template. The record file and
 `oui.txt` are both deleted on the way out.

 The registry pattern here is `\s*([0-9a-zA-Z]+)[\s]*\(base 16\)[\s]*([^\r\n]+)`, and keys are
 `delimit(strings.ToLower(prefix))`. `generateMapping` (template reading, rendering, `go/format`
 and writing `mapping.go`) is a parameter: the model records the mapping handed to it and returns
 its error.
 */
module ActionsUpdate {
  import opened Base
  import opened Text
  import opened LineReader
  import opened KeyFormat
  import opened Pattern
  import opened CacheFile
  import opened Registry

  const DatFile := "mac2vnd.dat"
  const OuiFile := "oui.txt"
  const SourceUrl := "http://standards-oui.ieee.org/oui/oui.txt"

  /** The (key, vendor) pairs the loop files: key `delimit(strings.ToLower(parts[1]))`, vendor `parts[2]`. */
  function Pairs(es: seq<Entry>): seq<(string, string)>
  {
    seq(|es|, i requires 0 <= i < |es| => (Delimit(ToLower(es[i].prefix)), es[i].vendor))
  }

  function Entries(lines: seq<string>): seq<(string, string)>
  {
    Pairs(Matches(lines, NoCrLf))
  }

  /** Every pair is written as one record line; its key is the one the library files the same prefix
      under, and its vendor is non-empty and free of carriage returns and line feeds. */
  lemma EntriesShape(lines: seq<string>)
    ensures forall i :: 0 <= i < |Entries(lines)| ==> Writable(Entries(lines)[i])
    ensures forall i :: 0 <= i < |Entries(lines)| ==>
              Entries(lines)[i].0 == ToLower(Delimit(Matches(lines, NoCrLf)[i].prefix))
    ensures forall i :: 0 <= i < |Entries(lines)| ==>
              var v := Entries(lines)[i].1; |v| > 0 && '\r' !in v && '\n' !in v
  {
    var es := Matches(lines, NoCrLf);
    forall i | 0 <= i < |es|
      ensures Writable(Entries(lines)[i])
      ensures Entries(lines)[i].0 == ToLower(Delimit(es[i].prefix))
      ensures var v := Entries(lines)[i].1; |v| > 0 && '\r' !in v && '\n' !in v
    {
      assert Captured(es[i], NoCrLf);
      RegistryKey(es[i].prefix);
    }
  }

  /** `transform` (actions/update.go): with dst missing, every complete line of src is converted and
      written to dst; a read error is returned as it is, otherwise the mapping goes to `generateMapping`
      and its error is returned. dst is removed on the way out either way. */
  function Transform(disk: Disk, src: string, dst: string, generate: map<string, string> -> Option<Error>): (r: Transformed)
    ensures r.disk == disk
    ensures r.generated.Some? <==> dst !in disk && src in disk && disk[src].ending.Eof?
    ensures r.generated.Some? ==> r.err == generate(r.generated.value)
    ensures dst !in disk && src in disk ==> r.written == Concat(Records(Entries(Lines(disk[src].data))))
    ensures dst !in disk && src in disk && disk[src].ending.Broken? ==> r.err == Some(disk[src].ending.err)
    ensures dst !in disk && src !in disk ==> r.err.Some?
    ensures dst in disk ==> r.err.None? && r.written == ""
  {
    if dst in disk then Transformed(disk, "", None, None)
    else if src !in disk then
      Transformed(disk, "", Some(Wrapped("failed to parse", Failure("open " + src + ": no such file or directory"))), None)
    else
      var es := Entries(Lines(disk[src].data));
      var written := Concat(Records(es));
      match disk[src].ending
      case Broken(e) => Transformed(disk, written, Some(e), None)
      case Eof => Transformed(disk, written, generate(Store(es)), Some(Store(es)))
  }

  /** `downloadMacTable` (actions/update.go): skipped when dst exists; otherwise dst is created only
      after a response with status 200, and holds its body. */
  function DownloadMacTable(disk: Disk, dst: string, net: Fetch): (r: Effect)
    ensures r.fetched <==> dst !in disk
    ensures forall p :: p != dst ==> (p in r.disk <==> p in disk) && (p in disk ==> r.disk[p] == disk[p])
    ensures dst in r.disk <==> dst in disk || (net.Response? && net.status == StatusOK)
    ensures dst !in disk && dst in r.disk ==> r.disk[dst] == File(net.body.data)
    ensures dst !in disk && !(net.Response? && net.status == StatusOK) ==> r.err.Some?
    ensures dst !in disk && net.Response? && net.status == StatusOK ==> (r.err.None? <==> net.body.ending.Eof?)
  {
    if dst in disk then Effect(disk, false, None)
    else
      match net
      case Unreachable(e) => Effect(disk, true, Some(Wrapped("failed to download " + SourceUrl, e)))
      case Response(status, statusLine, body) =>
        if status != StatusOK then
          Effect(disk, true, Some(Failure("failed to download " + SourceUrl + "; server responded with " + statusLine)))
        else
          var written := disk[dst := File(body.data)];
          match body.ending
          case Eof => Effect(written, true, None)
          case Broken(e) => Effect(written, true, Some(Wrapped("failed to write " + SourceUrl, e)))
  }

  /** `load(src)`: with src missing, download and transform; `oui.txt` is removed on every way out. */
  function Load(disk: Disk, src: string, net: Fetch, generate: map<string, string> -> Option<Error>): (r: Updated)
    ensures src in disk ==> r == Updated(disk, false, None, None)
    ensures r.fetched <==> src !in disk && OuiFile !in disk
    ensures src !in disk ==> OuiFile !in r.disk
  {
    if src in disk then Updated(disk, false, None, None)
    else
      var d := DownloadMacTable(disk, OuiFile, net);
      if d.err.Some? then Updated(d.disk - {OuiFile}, d.fetched, d.err, None)
      else
        var t := Transform(d.disk, OuiFile, src, generate);
        Updated(t.disk - {OuiFile}, d.fetched, t.err, t.generated)
  }

  /** A successful update from scratch maps each key to the vendor of the last registry line with that
      key, exactly as captured, and the records it wrote read back to the same table trimmed. */
  lemma LoadFromScratch(disk: Disk, src: string, line: string, body: string, generate: map<string, string> -> Option<Error>)
    requires src !in disk && OuiFile !in disk && src != OuiFile
    ensures var r := Load(disk, src, Response(StatusOK, line, File(body)), generate);
      && r.fetched
      && r.generated == Some(Store(Entries(Lines(body))))
      && r.err == generate(Store(Entries(Lines(body))))
  {
  }

  /** The records written along the way would read back as the generated mapping with trimmed vendors. */
  lemma WrittenReadsBack(disk: Disk, src: string, dst: string, generate: map<string, string> -> Option<Error>)
    requires dst !in disk && src in disk
    ensures InitCache(File(Transform(disk, src, dst, generate).written))
              == Loaded(Store(Trimmed(Entries(Lines(disk[src].data)))))
  {
    EntriesShape(Lines(disk[src].data));
    RecordsReadBack(Entries(Lines(disk[src].data)));
  }

  /** Any status other than 200 stops the update before a file is created or a mapping generated. */
  lemma StatusGate(disk: Disk, src: string, status: int, line: string, body: Source,
                   generate: map<string, string> -> Option<Error>)
    requires src !in disk && OuiFile !in disk
    requires status != StatusOK
    ensures var r := Load(disk, src, Response(status, line, body), generate);
      r.fetched && r.err.Some? && r.generated.None? && r.disk == disk
  {
  }

  /** Neither the record file nor `oui.txt` persists between runs: starting without them, an update
      leaves the modelled disk as it found it, so the next one downloads again. (The `mapping.go` the
      template step writes is not part of the modelled disk.) */
  lemma EveryRunRefetches(disk: Disk, src: string, net: Fetch, net2: Fetch,
                          generate: map<string, string> -> Option<Error>)
    requires src !in disk && OuiFile !in disk
    ensures Load(disk, src, net, generate).disk == disk
    ensures Load(Load(disk, src, net, generate).disk, src, net2, generate).fetched
  {
    var d := DownloadMacTable(disk, OuiFile, net);
    assert d.disk - {OuiFile} == disk;
  }

  /** In the generated mapping the last registry line for a key wins, and a key is present exactly
      when some matched line carries it. */
  lemma GeneratedLastWins(lines: seq<string>)
    ensures forall k :: k in Store(Entries(lines)) <==> exists i :: 0 <= i < |Entries(lines)| && Entries(lines)[i].0 == k
    ensures forall i :: 0 <= i < |Entries(lines)| && (forall j :: i < j < |Entries(lines)| ==> Entries(lines)[j].0 != Entries(lines)[i].0) ==>
              Store(Entries(lines))[Entries(lines)[i].0] == Entries(lines)[i].1
  {
    StoreLastWins(Entries(lines));
  }

  /** A registry line with nothing but line-ending characters after `(base 16)` contributes nothing. */
  lemma BareLineAddsNothing(lines: seq<string>, lead: string, tail: string)
    requires forall i :: 0 <= i < |lead| ==> lead[i] != '('
    requires forall i :: 0 <= i < |tail| ==> tail[i] == '\r' || tail[i] == '\n'
    ensures Entries(lines + [lead + Marker + tail]) == Entries(lines)
  {
    BareMarkerNoCrLf(lead, tail);
    MatchesSnoc(lines, lead + Marker + tail, NoCrLf);
    assert Matches(lines + [lead + Marker + tail], NoCrLf) == Matches(lines, NoCrLf);
  }
}

=== FILE: base.dfy ===
/**
 Values shared by every part of the model: optional values, Go error values,
 the file system as the loaders see it, and the outcome of an HTTP download.
 */
module Base {

  datatype Option<T> = None | Some(value: T)

  datatype Result<T> = Ok(value: T) | Err(error: Error)

  /** A Go `error`. Only `*net.AddrError` is told apart from the rest,
      because the web front end of `actions/serve.go` classifies on it. */
  datatype Error =
    | AddrError(err: string, addr: string)
    | Failure(message: string)
    | Wrapped(context: string, cause: Error)

  /** What `err.Error()` returns; `net.AddrError` prefixes the offending address when there is one. */
  function Message(e: Error): string
  {
    match e
    case AddrError(err, addr) => if addr != "" then "address " + addr + ": " + err else err
    case Failure(m) => m
    case Wrapped(c, cause) => c + ": " + Message(cause)
  }

  /** How a stream of text ends once its data has been delivered:
      `io.EOF`, or some other read error. */
  datatype Ending = Eof | Broken(err: Error)

  /** A byte stream read through `bufio.Reader`: everything it delivers, then how it ends. */
  datatype Source = Source(data: string, ending: Ending)

  /** A file as written: reading it delivers the contents and then `io.EOF`. */
  function File(content: string): Source
  {
    Source(content, Eof)
  }

  /** The file system: each path to what reading the file delivers. A path is absent exactly when
      `os.Stat` reports `IsNotExist`. */
  type Disk = map<string, Source>

  /** What `http.Get` on the registry URL produces: a transport error, or a response with its status
      code, its status line (`response.Status`, such as "404 Not Found") and its body stream. */
  datatype Fetch = Unreachable(err: Error) | Response(status: int, statusLine: string, body: Source)

  /** What a download or load step did: the resulting file system, whether an HTTP request was issued,
      and the error it returned (None for nil). */
  datatype Effect = Effect(disk: Disk, fetched: bool, err: Option<Error>)

  const StatusOK := 200
}

=== FILE: cache.dfy ===
/**
 The cache file `mac2vnd.dat` and `initCache` (mac2vendor.go): one record per line,
 `<key>\t<vendor>\n`. Reading splits each complete line at its first tab, trims the value
 and stores it under the key; a later line for the same key overwrites an earlier one.
 */
module CacheFile {
  import opened Base
  import opened Text
  import opened LineReader

  const Tab := '\t'

  /** `strings.SplitN(line, "\t", 2)` when it yields two parts: the text before the first tab and
      the text after it. None when the line has no tab and SplitN returns the line alone. */
  function SplitTab(line: string): (r: Option<(string, string)>)
    ensures r.None? <==> Tab !in line
    ensures r.Some? ==> line == r.value.0 + [Tab] + r.value.1 && Tab !in r.value.0
  {
    var k := IndexFrom(line, Tab, 0);
    if k == |line| then None
    else
      assert line == line[..k] + [Tab] + line[k + 1..];
      Some((line[..k], line[k + 1..]))
  }

  /** The split point is the first tab, so a tab-free key comes back whole. */
  lemma SplitTabOf(key: string, rest: string)
    requires Tab !in key
    ensures SplitTab(key + [Tab] + rest) == Some((key, rest))
  {
    var line := key + [Tab] + rest;
    var k := IndexFrom(line, Tab, 0);
    assert line[|key|] == Tab;
    assert line[..k] == key;
    assert line[k + 1..] == rest;
  }

  /** Every line has a tab, so none of them makes the loop panic. */
  predicate AllTabbed(lines: seq<string>)
  {
    forall i :: 0 <= i < |lines| ==> Tab in lines[i]
  }

  /** The state of `mapping` after the loop has consumed `lines` in order: None once a line
      without a tab has been reached, where `parts[1]` is out of range and the loop panics. */
  function Cache(lines: seq<string>): (r: Option<map<string, string>>)
    ensures r.Some? <==> AllTabbed(lines)
    decreases |lines|
  {
    if |lines| == 0 then Some(map[])
    else
      var n := |lines| - 1;
      assert AllTabbed(lines) <==> AllTabbed(lines[..n]) && Tab in lines[n];
      match Cache(lines[..n])
      case None => None
      case Some(m) =>
        match SplitTab(lines[n])
        case None => None
        case Some(kv) => Some(m[kv.0 := TrimSpace(kv.1)])
  }

  /** Independent description of the mapping: assigning each pair in order. */
  function Store(pairs: seq<(string, string)>): map<string, string>
    decreases |pairs|
  {
    if |pairs| == 0 then map[]
    else Store(pairs[..|pairs| - 1])[pairs[|pairs| - 1].0 := pairs[|pairs| - 1].1]
  }

  /** The last assignment to a key wins, and the keys are exactly those assigned. */
  lemma {:induction false} StoreLastWins(pairs: seq<(string, string)>)
    ensures forall k :: k in Store(pairs) <==> exists i :: 0 <= i < |pairs| && pairs[i].0 == k
    ensures forall i :: 0 <= i < |pairs| && (forall j :: i < j < |pairs| ==> pairs[j].0 != pairs[i].0) ==>
              Store(pairs)[pairs[i].0] == pairs[i].1
    decreases |pairs|
  {
    if |pairs| > 0 {
      var n := |pairs| - 1;
      StoreLastWins(pairs[..n]);
      assert forall i :: 0 <= i < n ==> pairs[..n][i] == pairs[i];
    }
  }

  /** The key/value pair a complete cache line contributes. */
  function Pair(line: string): (string, string)
    requires Tab in line
  {
    var kv := SplitTab(line).value;
    (kv.0, TrimSpace(kv.1))
  }

  /** When every line has a tab, reading them is assigning their pairs in order. */
  lemma {:induction false} CacheStores(lines: seq<string>, pairs: seq<(string, string)>)
    requires AllTabbed(lines)
    requires |pairs| == |lines| && forall i :: 0 <= i < |lines| ==> pairs[i] == Pair(lines[i])
    ensures Cache(lines) == Some(Store(pairs))
    decreases |lines|
  {
    if |lines| > 0 {
      var n := |lines| - 1;
      assert AllTabbed(lines[..n]);
      CacheStores(lines[..n], pairs[..n]);
    }
  }

  /** What `initCache` returns: the table, the read error, or a panic on a line without a tab. */
  datatype CacheResult = Loaded(mapping: map<string, string>) | Failed(err: Error) | Panicked

  /** `initCache`: complete lines are stored as they arrive; the text the reader delivers with `io.EOF`
      is dropped and the mapping returned; any other read error discards the mapping. */
  function InitCache(src: Source): (r: CacheResult)
    ensures r.Panicked? <==> !AllTabbed(Lines(src.data))
    ensures r.Failed? ==> src.ending.Broken? && r.err == src.ending.err
    ensures src.ending.Eof? ==> !r.Failed?
  {
    match Cache(Lines(src.data))
    case None => Panicked
    case Some(m) =>
      match src.ending
      case Eof => Loaded(m)
      case Broken(e) => Failed(e)
  }

  /** One record as the transforms write it, `key TAB vendor LF`: splitting it at its first tab, as
      the reader does, gives back a tab-free key and the vendor with its line feed. */
  function Record(key: string, vendor: string): (r: string)
    ensures Tab !in key ==> SplitTab(r) == Some((key, vendor + "\n"))
  {
    var r := key + [Tab] + vendor + "\n";
    assert r == key + [Tab] + (vendor + "\n");
    if Tab in key then r else SplitTabOf(key, vendor + "\n"); r
  }

  /** A record whose key has no tab and whose vendor has no line feed reads back as that key with
      the trimmed vendor: the written line feed is white space and never reaches the table. */
  lemma RecordReadsBack(key: string, vendor: string)
    requires Tab !in key && '\n' !in key && '\n' !in vendor
    ensures IsLine(Record(key, vendor))
    ensures Tab in Record(key, vendor)
    ensures Pair(Record(key, vendor)) == (key, TrimSpace(vendor))
  {
    var r := Record(key, vendor);
    assert r == key + [Tab] + (vendor + "\n");
    SplitTabOf(key, vendor + "\n");
    TrimSpaceDropsTrailingSpace(vendor, '\n');
    assert r[|key|] == Tab;
    forall n | 0 <= n < |r| - 1
      ensures r[n] != '\n'
    {
      if n < |key| {
        assert r[n] == key[n];
      } else if n > |key| {
        assert r[n] == vendor[n - |key| - 1];
      }
    }
  }

  /** Reading a file of such records gives exactly the mapping the records spell, last one winning. */
  lemma ReadRecords(pairs: seq<(string, string)>, recs: seq<string>, stored: seq<(string, string)>)
    requires |recs| == |pairs| == |stored|
    requires forall i :: 0 <= i < |pairs| ==> Tab !in pairs[i].0 && '\n' !in pairs[i].0 && '\n' !in pairs[i].1
    requires forall i :: 0 <= i < |pairs| ==> recs[i] == Record(pairs[i].0, pairs[i].1)
    requires forall i :: 0 <= i < |pairs| ==> stored[i] == (pairs[i].0, TrimSpace(pairs[i].1))
    ensures InitCache(Source(Concat(recs), Eof)) == Loaded(Store(stored))
  {
    forall i | 0 <= i < |recs|
      ensures IsLine(recs[i]) && Tab in recs[i] && Pair(recs[i]) == stored[i]
    {
      RecordReadsBack(pairs[i].0, pairs[i].1);
    }
    LinesOfConcat(recs, "");
    assert Concat(recs) + "" == Concat(recs);
    CacheStores(recs, stored);
  }

  /** Text after the last line feed never reaches the table. */
  lemma InitCacheIgnoresTail(data: string, frag: string, ending: Ending)
    requires Tail(data) == ""
    requires '\n' !in frag
    ensures InitCache(Source(data + frag, ending)) == InitCache(Source(data, ending))
  {
    LinesIgnoreTail(data, frag);
  }

  /** A read error discards whatever was read, unless a tab-less line panicked first. */
  lemma ReadErrorDiscards(data: string, e: Error)
    requires AllTabbed(Lines(data))
    ensures InitCache(Source(data, Broken(e))) == Failed(e)
  {
  }
}

=== FILE: cli_update.dfy ===
/**
 The `update` step of the standalone command (cmd/cli/mac2vendor/update.go): like the library it
 keeps the registry in `/tmp/oui.txt`, and like actions/update.go it renders `mapping.go` from the
 mapping. It requests the registry before creating the file and does not look at the status code;
 the record file is removed only once the read loop has finished cleanly.

 The registry pattern here is `\s*([0-9a-zA-Z]+)[\s]*\(base 16\)[\s]*([^\r]+)`. The mapping is keyed
 by `delimit(strings.ToLower(prefix))`, the records by `strings.ToLower(delimit(prefix))`.
 */
module CliUpdate {
  import opened Base
  import opened Text
  import opened LineReader
  import opened KeyFormat
  import opened Pattern
  import opened CacheFile
  import opened Registry

  const Dat := "mac2vnd.dat"
  const OuiPath := "/tmp/oui.txt"
  const SourceUrl := "http://standards-oui.ieee.org/oui/oui.txt"

  /** The pairs put into `mapping`: key `delimit(strings.ToLower(parts[1]))`. */
  function MappingPairs(es: seq<Entry>): seq<(string, string)>
  {
    seq(|es|, i requires 0 <= i < |es| => (Delimit(ToLower(es[i].prefix)), es[i].vendor))
  }

  /** The pairs written to the record file: key `strings.ToLower(delimit(parts[1]))`. */
  function RecordPairs(es: seq<Entry>): seq<(string, string)>
  {
    seq(|es|, i requires 0 <= i < |es| => (ToLower(Delimit(es[i].prefix)), es[i].vendor))
  }

  /** The two ways of building the key agree on every prefix the pattern captures. */
  lemma KeysAgree(lines: seq<string>)
    ensures MappingPairs(Matches(lines, NoCr)) == RecordPairs(Matches(lines, NoCr))
  {
    var es := Matches(lines, NoCr);
    forall i | 0 <= i < |es|
      ensures Delimit(ToLower(es[i].prefix)) == ToLower(Delimit(es[i].prefix))
    {
      assert Captured(es[i], NoCr);
      RegistryKey(es[i].prefix);
    }
  }

  /** `transform` (cmd/cli/mac2vendor/update.go): with dst missing, every complete line of src is
      converted and written to dst. A read error returns at once and leaves dst behind; a clean read
      hands the mapping to the template step, removes dst, and returns the template step's error
      (the error of writing `mapping.go` is dropped). */
  function Transform(disk: Disk, src: string, dst: string, generate: map<string, string> -> Option<Error>): (r: Transformed)
    ensures r.generated.Some? <==> dst !in disk && src in disk && disk[src].ending.Eof?
    ensures r.generated.Some? ==> r.err == generate(r.generated.value) && r.disk == disk
    ensures dst !in disk && src in disk ==> r.written == Concat(Records(RecordPairs(Matches(Lines(disk[src].data), NoCr))))
    ensures dst !in disk && src in disk && disk[src].ending.Broken? ==>
              r.disk == disk[dst := File(r.written)] && r.err == Some(disk[src].ending.err)
    ensures dst in disk || src !in disk ==> r.disk == disk
  {
    if dst in disk then Transformed(disk, "", None, None)
    else if src !in disk then
      Transformed(disk, "", Some(Wrapped("failed to parse", Failure("open " + src + ": no such file or directory"))), None)
    else
      var es := Matches(Lines(disk[src].data), NoCr);
      var written := Concat(Records(RecordPairs(es)));
      match disk[src].ending
      case Broken(e) => Transformed(disk[dst := File(written)], written, Some(e), None)
      case Eof => Transformed(disk, written, generate(Store(MappingPairs(es))), Some(Store(MappingPairs(es))))
  }

  /** `downloadMacTable` (cmd/cli/mac2vendor/update.go): skipped when dst exists; otherwise the request
      comes first, and dst is created with the body of whatever response arrives. */
  function DownloadMacTable(disk: Disk, dst: string, net: Fetch): (r: Effect)
    ensures r.fetched <==> dst !in disk
    ensures forall p :: p != dst ==> (p in r.disk <==> p in disk) && (p in disk ==> r.disk[p] == disk[p])
    ensures dst in r.disk <==> dst in disk || net.Response?
    ensures dst !in disk && net.Response? ==> r.disk[dst] == File(net.body.data)
    ensures dst !in disk && net.Unreachable? ==> r.err.Some?
    ensures dst !in disk && net.Response? ==> (r.err.None? <==> net.body.ending.Eof?)
  {
    if dst in disk then Effect(disk, false, None)
    else
      match net
      case Unreachable(e) => Effect(disk, true, Some(Wrapped("failed to download " + SourceUrl, e)))
      case Response(_, _, body) =>
        var written := disk[dst := File(body.data)];
        match body.ending
        case Eof => Effect(written, true, None)
        case Broken(e) => Effect(written, true, Some(Wrapped("failed to write " + SourceUrl, e)))
  }

  /** `load(src)`: with src missing, download (unless `/tmp/oui.txt` is there) and transform. */
  function Load(disk: Disk, src: string, net: Fetch, generate: map<string, string> -> Option<Error>): (r: Updated)
    ensures src in disk ==> r == Updated(disk, false, None, None)
    ensures r.fetched <==> src !in disk && OuiPath !in disk
  {
    if src in disk then Updated(disk, false, None, None)
    else
      var d := DownloadMacTable(disk, OuiPath, net);
      if d.err.Some? then Updated(d.disk, d.fetched, d.err, None)
      else
        var t := Transform(d.disk, OuiPath, src, generate);
        Updated(t.disk, d.fetched, t.err, t.generated)
  }

  /** Whatever the status code, a response body becomes the registry and its lines the mapping. */
  lemma LoadIgnoresStatus(disk: Disk, src: string, status: int, line: string, body: string,
                          generate: map<string, string> -> Option<Error>)
    requires src !in disk && OuiPath !in disk && src != OuiPath
    ensures var r := Load(disk, src, Response(status, line, File(body)), generate);
      && r.fetched
      && r.disk == disk[OuiPath := File(body)]
      && r.generated == Some(Store(MappingPairs(Matches(Lines(body), NoCr))))
  {
  }

  /** An unreachable registry leaves no file behind, so the next run asks again. */
  lemma UnreachableLeavesNothing(disk: Disk, src: string, e: Error, net: Fetch,
                                 generate: map<string, string> -> Option<Error>)
    requires src !in disk && OuiPath !in disk
    ensures Load(disk, src, Unreachable(e), generate).disk == disk
    ensures Load(Load(disk, src, Unreachable(e), generate).disk, src, net, generate).fetched
  {
  }

  /** A read error part-way through the registry strands the partial record file: every later run
      finds it, does nothing and reports success, and no mapping is ever generated. */
  lemma ReadErrorStrandsRecords(disk: Disk, src: string, data: string, e: Error, net: Fetch,
                                generate: map<string, string> -> Option<Error>)
    requires src !in disk && src != OuiPath
    requires OuiPath in disk && disk[OuiPath] == Source(data, Broken(e))
    ensures var first := Load(disk, src, net, generate);
      && first.err == Some(e) && first.generated.None? && src in first.disk
      && Load(first.disk, src, net, generate) == Updated(first.disk, false, None, None)
  {
  }

  /** The records written along the way read back as the mapping with trimmed vendors, provided no
      vendor holds a line feed (see LfVendorKeepsNewline for when one does). */
  lemma WrittenReadsBack(disk: Disk, src: string, dst: string, generate: map<string, string> -> Option<Error>)
    requires dst !in disk && src in disk
    requires VendorsOnOneLine(Lines(disk[src].data))
    ensures InitCache(File(Transform(disk, src, dst, generate).written))
              == Loaded(Store(Trimmed(MappingPairs(Matches(Lines(disk[src].data), NoCr)))))
  {
    RecordsReadBackNoLf(Lines(disk[src].data));
  }

  /** No captured vendor holds a line feed. */
  predicate VendorsOnOneLine(lines: seq<string>)
  {
    forall i :: 0 <= i < |Matches(lines, NoCr)| ==> '\n' !in Matches(lines, NoCr)[i].vendor
  }

  lemma RecordsReadBackNoLf(lines: seq<string>)
    requires VendorsOnOneLine(lines)
    ensures InitCache(File(Concat(Records(RecordPairs(Matches(lines, NoCr))))))
              == Loaded(Store(Trimmed(MappingPairs(Matches(lines, NoCr)))))
  {
    var es := Matches(lines, NoCr);
    KeysAgree(lines);
    forall i | 0 <= i < |es|
      ensures Writable(RecordPairs(es)[i])
    {
      assert Captured(es[i], NoCr);
      KeyWritable(es[i].prefix, es[i].vendor);
    }
    RecordsReadBack(RecordPairs(es));
  }

  /** On a line that ends in a bare line feed, `([^\r]+)` runs through the line feed: the vendor
      captured ends with it. */
  lemma LfVendorKeepsNewline(line: string)
    requires '\r' !in line
    requires |line| > 0 && line[|line| - 1] == '\n'
    requires Submatch(line, NoCr).Some?
    ensures var v := Submatch(line, NoCr).value.vendor; |v| > 0 && v[|v| - 1] == '\n'
  {
    NoCrKeepsRest(line);
    var v := line[Find(line, NoCr).value.restStart..];
    assert v[|v| - 1] == line[|line| - 1];
  }

  /** A registry line the capture takes the line feed from. */
  const LfLine := "aabbcc (base 16) Acme\n"

  /** The written record of such a line is followed by an empty line, and the mapping value keeps
      the line feed. */
  lemma LfLineCounterexample()
    ensures Submatch(LfLine, NoCr).Some?
    ensures var v := Submatch(LfLine, NoCr).value.vendor; |v| > 0 && v[|v| - 1] == '\n'
    ensures Submatch(LfLine, NoCrLf).Some?
    ensures '\n' !in Submatch(LfLine, NoCrLf).value.vendor
  {
    LfLineMatches();
    LfLineShape();
    LfVendorKeepsNewline(LfLine);
  }

  lemma LfLineShape()
    ensures '\r' !in LfLine && |LfLine| == 22 && LfLine[21] == '\n'
  {
  }

  lemma LfLineMatches()
    ensures Submatch(LfLine, NoCr).Some?
    ensures Submatch(LfLine, NoCrLf).Some?
  {
    assert LfLine[7..16] == Marker;
    assert IsMatch(LfLine, NoCr, Span(0, 0, 6, 7, 17, 22));
    assert IsMatch(LfLine, NoCrLf, Span(0, 0, 6, 7, 17, 21));
  }

  /** With a bare `(base 16)` and a CRLF or LF ending, the vendor is the line feed alone. */
  lemma BareLineVendorIsNewline(lead: string, tail: string)
    requires forall i :: 0 <= i < |lead| ==> lead[i] != '('
    requires tail == "\n" || tail == "\r\n"
    requires Find(lead + Marker + tail, NoCr).Some?
    ensures Submatch(lead + Marker + tail, NoCr).value.vendor == "\n"
  {
    BareMarkerNoCr(lead, tail);
  }

  /** On a line that ends in CRLF, `([^\r]+)` stops at the carriage return, so the vendor stays on
      the line, unless the capture can only begin after it, where it is the line feed alone. */
  lemma CrLfVendorOneLine(body: string)
    requires '\r' !in body && '\n' !in body
    requires Submatch(body + "\r\n", NoCr).Some?
    ensures var v := Submatch(body + "\r\n", NoCr).value.vendor;
      v == "\n" || ('\n' !in v && '\r' !in v)
  {
    var s := body + "\r\n";
    var sp := Find(s, NoCr).value;
    assert Submatch(s, NoCr).value.vendor == s[sp.restStart..sp.restEnd];
    NotCrRunInCrLf(body, sp.restStart, sp.restEnd);
  }

  /** A non-empty run without carriage returns in `body + "\r\n"` lies inside body or is the final
      line feed. */
  lemma NotCrRunInCrLf(body: string, i: nat, j: nat)
    requires '\r' !in body && '\n' !in body
    requires AllIn(body + "\r\n", i, j, NotCr) && i < j
    ensures var v := (body + "\r\n")[i..j]; v == "\n" || ('\n' !in v && '\r' !in v)
  {
    var s := body + "\r\n";
    assert !InClass(s[|body|], NotCr);
    if i <= |body| {
      assert j <= |body|;
      assert s[i..j] == body[i..j];
    } else {
      assert s[i..j] == "\n";
    }
  }

  /** A complete registry line ending in CRLF. */
  predicate CrLfLine(l: string)
  {
    |l| >= 2 && l[|l| - 2..] == "\r\n" && '\r' !in l[..|l| - 2] && '\n' !in l[..|l| - 2]
  }

  /** A line whose `(base 16)` is followed by nothing but white space (see BareLineVendorIsNewline)
      is the one that captures the lone line feed; every other line keeps its vendor clean. */
  predicate NoBareMarker(lines: seq<string>)
  {
    forall i :: 0 <= i < |lines| && Submatch(lines[i], NoCr).Some? ==> Submatch(lines[i], NoCr).value.vendor != "\n"
  }

  /** A registry served with CRLF line endings and without bare markers meets the condition under
      which the written records read back: no captured vendor holds a line feed (nor a carriage return). */
  lemma CrLfVendorsOnOneLine(lines: seq<string>)
    requires forall i :: 0 <= i < |lines| ==> CrLfLine(lines[i])
    requires NoBareMarker(lines)
    ensures VendorsOnOneLine(lines)
    ensures forall i :: 0 <= i < |Matches(lines, NoCr)| ==> '\r' !in Matches(lines, NoCr)[i].vendor
  {
    CrLfVendorsClean(lines);
  }

  lemma {:induction false} CrLfVendorsClean(lines: seq<string>)
    requires forall i :: 0 <= i < |lines| ==> CrLfLine(lines[i])
    requires NoBareMarker(lines)
    ensures forall i :: 0 <= i < |Matches(lines, NoCr)| ==>
              '\n' !in Matches(lines, NoCr)[i].vendor && '\r' !in Matches(lines, NoCr)[i].vendor
    decreases |lines|
  {
    if |lines| > 0 {
      var n := |lines| - 1;
      var init, l := lines[..n], lines[n];
      assert forall i :: 0 <= i < n ==> init[i] == lines[i];
      assert NoBareMarker(init);
      CrLfVendorsClean(init);
      assert init + [l] == lines;
      var es := Matches(init, NoCr);
      MatchesSnoc(init, l, NoCr);
      assert forall i :: 0 <= i < |es| ==> '\n' !in es[i].vendor && '\r' !in es[i].vendor;
      if Submatch(l, NoCr).Some? {
        CrLfLineVendor(l);
      }
    }
  }

  /** One CRLF line without a bare marker captures a clean vendor. */
  lemma CrLfLineVendor(l: string)
    requires CrLfLine(l)
    requires Submatch(l, NoCr).Some? && Submatch(l, NoCr).value.vendor != "\n"
    ensures '\n' !in Submatch(l, NoCr).value.vendor && '\r' !in Submatch(l, NoCr).value.vendor
  {
    var body := l[..|l| - 2];
    assert l == body + l[|l| - 2..];
    CrLfVendorOneLine(body);
  }

  /** The capture the code evidently means, `([^\r\n]+)` as in actions/update.go: the mapping pairs
      of the registry lines. */
  function CorrectedPairs(lines: seq<string>): seq<(string, string)>
  {
    MappingPairs(Matches(lines, NoCrLf))
  }

  /** With the corrected capture no vendor holds a line ending, every pair is one record line, and
      the records read back as the mapping with trimmed vendors. */
  lemma CorrectedVendorsClean(lines: seq<string>)
    ensures forall i :: 0 <= i < |CorrectedPairs(lines)| ==>
              var v := CorrectedPairs(lines)[i].1; |v| > 0 && '\r' !in v && '\n' !in v
    ensures InitCache(File(Concat(Records(CorrectedPairs(lines))))) == Loaded(Store(Trimmed(CorrectedPairs(lines))))
  {
    var es := Matches(lines, NoCrLf);
    forall i | 0 <= i < |es|
      ensures Writable(CorrectedPairs(lines)[i])
      ensures var v := CorrectedPairs(lines)[i].1; |v| > 0 && '\r' !in v && '\n' !in v
    {
      assert Captured(es[i], NoCrLf);
      RegistryKey(es[i].prefix);
    }
    RecordsReadBack(CorrectedPairs(lines));
  }
}

=== FILE: delimit.dfy ===
/**
 `delimit`, the key builder shared verbatim by `mac2vendor.go`, `actions/update.go` and
 `cmd/cli/mac2vendor/update.go`: it copies the prefix and writes a colon after every
 odd position below `prefixLength` (5), that is after positions 1 and 3.
 The Go loop ranges over byte offsets; the prefixes it is applied to are ASCII, so
 offsets and character positions coincide.
 */
module KeyFormat {
  import opened Text

  const PrefixLength := 5

  /** The loop of `delimit` from position i on. */
  function DelimitFrom(p: string, i: nat): string
    requires i <= |p|
    decreases |p| - i
  {
    if i == |p| then ""
    else [p[i]] + (if i % 2 != 0 && i < PrefixLength then ":" else "") + DelimitFrom(p, i + 1)
  }

  /** Deletes every colon: the inverse of Delimit on colon-free text. */
  function StripColons(s: string): (r: string)
    ensures forall i :: 0 <= i < |r| ==> r[i] != ':'
    ensures |r| <= |s|
  {
    if |s| == 0 then "" else (if s[0] == ':' then "" else [s[0]]) + StripColons(s[1..])
  }

  predicate ColonFree(s: string)
  {
    forall i :: 0 <= i < |s| ==> s[i] != ':'
  }

  lemma {:induction false} DelimitFromPlain(p: string, i: nat)
    requires PrefixLength - 1 <= i <= |p|
    ensures DelimitFrom(p, i) == p[i..]
    decreases |p| - i
  {
    if i < |p| {
      assert i == 4 || i >= PrefixLength;
      assert !(i % 2 != 0 && i < PrefixLength);
      assert DelimitFrom(p, i) == [p[i]] + DelimitFrom(p, i + 1);
      DelimitFromPlain(p, i + 1);
      assert p[i..] == [p[i]] + p[i + 1..];
    }
  }

  /** The whole loop of `delimit`, unrolled over the first five positions. The start position is a
      parameter, not the literal 0, so that the verifier does not unroll the loop on its own. */
  lemma DelimitFromShape(p: string, i: nat)
    requires i == 0
    ensures |p| < 2 ==> DelimitFrom(p, i) == p
    ensures 2 <= |p| < 4 ==> DelimitFrom(p, i) == p[..2] + ":" + p[2..]
    ensures 4 <= |p| ==> DelimitFrom(p, i) == p[..2] + ":" + p[2..4] + ":" + p[4..]
  {
    if |p| >= 4 {
      DelimitFromShift(p, 2);
      DelimitFromPlain(p, 4);
      DelimitFromShift(p, i);
    } else if |p| >= 2 {
      DelimitFromShift(p, i);
      if |p| == 3 {
        assert DelimitFrom(p, 2) == [p[2]] + DelimitFrom(p, 3);
        assert p[2..] == [p[2]];
      }
    } else if |p| == 1 {
      assert DelimitFrom(p, i) == [p[0]] + DelimitFrom(p, 1);
    }
  }

  /** From position 0 or 2 the loop copies two characters and then writes a colon. */
  lemma DelimitFromShift(p: string, i: nat)
    requires (i == 0 || i == 2) && i + 2 <= |p|
    ensures DelimitFrom(p, i) == p[i..i + 2] + ":" + DelimitFrom(p, i + 2)
  {
    var r := DelimitFrom(p, i + 2);
    assert DelimitFrom(p, i + 1) == [p[i + 1]] + ":" + r;
    assert DelimitFrom(p, i) == [p[i]] + ([p[i + 1]] + ":" + r);
    assert p[i..i + 2] == [p[i], p[i + 1]];
    assert [p[i]] + ([p[i + 1]] + ":" + r) == [p[i], p[i + 1]] + ":" + r;
  }

  /** `delimit`: the shape of a key. Colons go after positions 1 and 3 only and nothing is dropped,
      so `aabbcc` becomes `aa:bb:cc` and `0050c2ab` becomes `00:50:c2ab`. */
  function Delimit(p: string): (k: string)
    ensures |p| < 2 ==> k == p
    ensures 2 <= |p| < 4 ==> k == p[..2] + ":" + p[2..]
    ensures 4 <= |p| ==> k == p[..2] + ":" + p[2..4] + ":" + p[4..]
  {
    DelimitFromShape(p, 0);
    DelimitFrom(p, 0)
  }

  /** A six-character prefix becomes three colon-separated pairs. */
  lemma DelimitSixExample()
    ensures Delimit("aabbcc") == "aa:bb:cc"
  {
    DelimitExample("aabbcc", "aa", "bb", "cc");
  }

  /** A longer prefix keeps its tail whole after the second colon. */
  lemma DelimitLongerExample()
    ensures Delimit("0050c2ab") == "00:50:c2ab"
  {
    DelimitExample("0050c2ab", "00", "50", "c2ab");
  }

  lemma DelimitExample(p: string, a: string, b: string, c: string)
    requires |a| == 2 && |b| == 2 && p == a + b + c
    ensures Delimit(p) == a + ":" + b + ":" + c
  {
    assert p[..2] == a && p[2..4] == b && p[4..] == c;
  }

  lemma {:induction false} StripColonsAppend(a: string, b: string)
    ensures StripColons(a + b) == StripColons(a) + StripColons(b)
    decreases |a|
  {
    if |a| == 0 {
      assert a + b == b;
    } else {
      assert (a + b)[1..] == a[1..] + b;
      StripColonsAppend(a[1..], b);
    }
  }

  lemma {:induction false} StripColonsFree(s: string)
    requires ColonFree(s)
    ensures StripColons(s) == s
    decreases |s|
  {
    if |s| > 0 {
      StripColonsFree(s[1..]);
      assert s == [s[0]] + s[1..];
    }
  }

  lemma StripColon()
    ensures StripColons(":") == ""
  {
    assert ":"[1..] == "";
  }

  /** Deleting the colons from `a:b` leaves the rest of both sides. */
  lemma StripJoin(a: string, b: string)
    ensures StripColons(a + ":" + b) == StripColons(a) + StripColons(b)
  {
    var c := ":";
    StripColonsAppend(a + c, b);
    StripColonsAppend(a, c);
    StripColon();
  }

  lemma StripTwo(a: string, b: string)
    requires ColonFree(a) && ColonFree(b)
    ensures StripColons(a + ":" + b) == a + b
  {
    StripJoin(a, b);
    StripColonsFree(a);
    StripColonsFree(b);
  }

  lemma StripThree(a: string, b: string, c: string)
    requires ColonFree(a) && ColonFree(b) && ColonFree(c)
    ensures StripColons(a + ":" + b + ":" + c) == a + b + c
  {
    StripJoin(a + ":" + b, c);
    StripTwo(a, b);
    StripColonsFree(c);
  }

  /** Deleting the colons from a key gives back the prefix it was built from. */
  lemma DelimitRoundTrip(p: string)
    requires ColonFree(p)
    ensures StripColons(Delimit(p)) == p
  {
    if |p| >= 4 {
      StripThree(p[..2], p[2..4], p[4..]);
      assert p == p[..2] + p[2..4] + p[4..];
    } else if |p| >= 2 {
      StripTwo(p[..2], p[2..]);
      assert p == p[..2] + p[2..];
    } else {
      StripColonsFree(p);
    }
  }

  /** Two colon-free prefixes with the same key are the same prefix. */
  lemma DelimitInjective(p: string, q: string)
    requires ColonFree(p) && ColonFree(q)
    requires Delimit(p) == Delimit(q)
    ensures p == q
  {
    DelimitRoundTrip(p);
    DelimitRoundTrip(q);
  }

  /** A key is the prefix plus one colon per completed pair among the first two pairs. */
  lemma DelimitLength(p: string)
    ensures |Delimit(p)| == |p| + (if |p| >= 2 then 1 else 0) + (if |p| >= 4 then 1 else 0)
  {
  }

  /** Keys are eight characters long exactly when the prefix has six. */
  lemma KeyLengthEight(p: string)
    ensures |Delimit(p)| == 8 <==> |p| == 6
  {
    DelimitLength(p);
  }

  /** Lower-casing and delimiting commute, so `delimit(ToLower(p))` and `ToLower(delimit(p))`
      build the same key. */
  lemma {:induction false} DelimitFromLower(p: string, i: nat)
    requires i <= |p|
    ensures ToLower(DelimitFrom(p, i)) == DelimitFrom(ToLower(p), i)
    decreases |p| - i
  {
    if i < |p| {
      var sep := if i % 2 != 0 && i < PrefixLength then ":" else "";
      DelimitFromLower(p, i + 1);
      ToLowerAppend([p[i]] + sep, DelimitFrom(p, i + 1));
      ToLowerAppend([p[i]], sep);
      assert ToLower(sep) == sep;
      assert ToLower([p[i]]) == [ToLower(p)[i]];
    }
  }

  lemma DelimitLowerCommute(p: string)
    ensures ToLower(Delimit(p)) == Delimit(ToLower(p))
  {
    DelimitFromLower(p, 0);
  }

  /** Every character of a key comes from the prefix or is a colon. */
  lemma DelimitAlphabet(p: string)
    ensures forall i :: 0 <= i < |Delimit(p)| ==> Delimit(p)[i] == ':' || Delimit(p)[i] in p
  {
    var d := Delimit(p);
    forall i | 0 <= i < |d|
      ensures d[i] == ':' || d[i] in p
    {
      if |p| >= 4 {
        if i < 2 { assert d[i] == p[i]; }
        else if i == 2 || i == 5 { assert d[i] == ':'; }
        else if i < 5 { assert d[i] == p[i - 1]; }
        else { assert d[i] == p[i - 2]; }
      } else if |p| >= 2 {
        if i < 2 { assert d[i] == p[i]; }
        else if i == 2 { assert d[i] == ':'; }
        else { assert d[i] == p[i - 1]; }
      }
    }
  }

  /** Keys built from registry prefixes (`[0-9a-zA-Z]+`) consist of lower-case letters, digits and colons. */
  lemma KeyAlphabet(p: string)
    requires forall i :: 0 <= i < |p| ==> IsAlnum(p[i])
    ensures forall i :: 0 <= i < |Delimit(ToLower(p))| ==>
              var c := Delimit(ToLower(p))[i]; ('a' <= c <= 'z') || ('0' <= c <= '9') || c == ':'
  {
    var q := ToLower(p);
    DelimitAlphabet(q);
    forall i | 0 <= i < |Delimit(q)|
      ensures var c := Delimit(q)[i]; ('a' <= c <= 'z') || ('0' <= c <= '9') || c == ':'
    {
      var c := Delimit(q)[i];
      if c != ':' {
        var n :| 0 <= n < |q| && q[n] == c;
        assert IsAlnum(p[n]);
      }
    }
  }
}

=== FILE: handlers.dfy ===
/**
 The web handler of the standalone server (cmd/mac2vendor/handlers.go). Its `Mac2Vnd` keeps only
 the error's message, so the handler can no longer tell a malformed address from any other error:
 every non-empty message is a 404. The lookup and `json.Marshal` are parameters.
 */
module ServerHandlers {
  import opened Base
  import opened Http

  /** The resource model; `Error` is the error's message. */
  datatype Mac2Vnd = Mac2Vnd(mac: string, vendor: string, error: string)

  /** `newMac2Vnd`: an error record carries only the message; otherwise the address and vendor. */
  function NewMac2Vnd(mac: string, vendor: string, err: Option<Error>): (r: Mac2Vnd)
    ensures err.Some? ==> r.mac == "" && r.vendor == "" && r.error == Message(err.value)
    ensures err.None? ==> r.mac == mac && r.vendor == vendor && r.error == ""
    ensures r.error != "" ==> err.Some?
  {
    if err.Some? then Mac2Vnd("", "", Message(err.value)) else Mac2Vnd(mac, vendor, "")
  }

  type Lookup = string -> (string, Option<Error>)

  type Encoder = Mac2Vnd -> Result<string>

  datatype Exchange = Exchange(reply: Reply, asked: Option<string>)

  /** The `lookup` handler. A request path without its leading slash panics at `r.URL.Path[1:]`. */
  function Handle(req: Request, lookup: Lookup, encode: Encoder): (x: Exchange)
    ensures req.verb != MethodGet ==> x == Exchange(HttpError("method not allowed", StatusMethodNotAllowed), None)
    ensures req.verb == MethodGet && |req.path| > 0 ==> x.asked == Some(req.path[1..])
    ensures x.reply.Crash? <==> req.verb == MethodGet && |req.path| == 0
  {
    if req.verb != MethodGet then Exchange(HttpError("method not allowed", StatusMethodNotAllowed), None)
    else if |req.path| == 0 then Exchange(Crash, None)
    else
      var mac := req.path[1..];
      var found := lookup(mac);
      var response := NewMac2Vnd(mac, found.0, found.1);
      var reply :=
        match encode(response)
        case Err(e) => HttpError(Message(e), StatusInternalServerError)
        case Ok(json) =>
          if response.error != "" then HttpError(json, StatusNotFound)
          else Reply(StatusOK, ApplicationJson, json);
      Exchange(reply, Some(mac))
  }

  /** This handler never answers 400: a GET is 200, 404 or 500, and 404 exactly when the lookup
      failed with a non-empty message. */
  lemma NeverBadRequest(req: Request, lookup: Lookup, encode: Encoder)
    requires req.verb == MethodGet && |req.path| > 0
    requires var found := lookup(req.path[1..]); encode(NewMac2Vnd(req.path[1..], found.0, found.1)).Ok?
    ensures var x := Handle(req, lookup, encode); var found := lookup(req.path[1..]);
      && x.reply.Reply?
      && (x.reply.status == StatusOK || x.reply.status == StatusNotFound)
      && (x.reply.status == StatusNotFound <==> found.1.Some? && Message(found.1.value) != "")
  {
  }

  /** A record that cannot be encoded is a 500 carrying the encoder's message, whatever the lookup said. */
  lemma EncodeFailureIs500(req: Request, lookup: Lookup, encode: Encoder)
    requires req.verb == MethodGet && |req.path| > 0
    requires var found := lookup(req.path[1..]); encode(NewMac2Vnd(req.path[1..], found.0, found.1)).Err?
    ensures var found := lookup(req.path[1..]);
      Handle(req, lookup, encode).reply
        == HttpError(Message(encode(NewMac2Vnd(req.path[1..], found.0, found.1)).error), StatusInternalServerError)
  {
  }

  /** An error whose message is empty is served as a success, with an empty address and vendor. */
  lemma SilentErrorIsOk(req: Request, lookup: Lookup, encode: Encoder)
    requires req.verb == MethodGet && |req.path| > 0
    requires lookup(req.path[1..]).1.Some? && Message(lookup(req.path[1..]).1.value) == ""
    requires encode(Mac2Vnd("", "", "")).Ok?
    ensures Handle(req, lookup, encode).reply == Reply(StatusOK, ApplicationJson, encode(Mac2Vnd("", "", "")).value)
  {
  }
}

=== FILE: http.dfy ===
/**
 The slice of `net/http` the lookup handlers use: the request's method and path, and the reply
 they produce with `http.Error` or by writing a JSON body.
 */
module Http {

  const MethodGet := "GET"

  const StatusBadRequest := 400
  const StatusNotFound := 404
  const StatusMethodNotAllowed := 405
  const StatusInternalServerError := 500

  const TextPlain := "text/plain; charset=utf-8"
  const ApplicationJson := "application/json"

  datatype Request = Request(verb: string, path: string)

  /** A reply as the client sees it, or the panic of a handler (which the server recovers from by
      dropping the connection). */
  datatype Reply = Reply(status: int, contentType: string, body: string) | Crash

  /** `http.Error(w, msg, code)`: plain text, the message followed by a line feed. It overrides a
      content type set before it. */
  function HttpError(msg: string, code: int): (r: Reply)
    ensures r.Reply? && r.status == code && r.contentType == TextPlain
    ensures |r.body| == |msg| + 1 && r.body[..|msg|] == msg && r.body[|msg|] == '\n'
  {
    Reply(code, TextPlain, msg + "\n")
  }
}

=== FILE: hwaddr.dfy ===
/**
 Hardware addresses as the lookup side sees them: `net.HardwareAddr` values, their
 `String` form, and a six-octet address parser.

 `net.ParseMAC` itself belongs to Go's standard library and is not part of this model:
 the lookup functions take the parser as a parameter. ParseMac48 below is the
 EUI-48 part of it (six two-digit hex groups joined by ':' or '-'); Go's parser also
 accepts 8- and 20-octet colon/hyphen forms and dot-separated groups of four digits.
 */
module HardwareAddr {
  import opened Base
  import opened Text

  type Octet = n: int | 0 <= n < 256

  /** What `net.ParseMAC` can return: 6 (EUI-48), 8 (EUI-64) or 20 (IP over InfiniBand) octets. */
  type Addr = a: seq<Octet> | |a| == 6 || |a| == 8 || |a| == 20 witness [0, 0, 0, 0, 0, 0]

  datatype MacParse = Parsed(addr: Addr) | Invalid(err: Error)

  const HexDigits := "0123456789abcdef"

  /** Two lower-case hex digits, high nibble first. */
  function Hex2(b: Octet): (r: string)
    ensures |r| == 2
  {
    [HexDigits[b / 16], HexDigits[b % 16]]
  }

  /** `HardwareAddr.String`: two lower-case hex digits per octet, joined by colons. */
  function AddrString(a: seq<Octet>): (r: string)
    ensures |a| > 0 ==> |r| == 3 * |a| - 1
  {
    if |a| == 0 then ""
    else if |a| == 1 then Hex2(a[0])
    else Hex2(a[0]) + ":" + AddrString(a[1..])
  }

  function HexVal(c: char): (v: nat)
    ensures v < 16
  {
    if '0' <= c <= '9' then c as int - '0' as int
    else if 'a' <= c <= 'f' then c as int - 'a' as int + 10
    else if 'A' <= c <= 'F' then c as int - 'A' as int + 10
    else 0
  }

  /** Group g of a 17-character address: two hex digits, and the separator after it (except after the last). */
  predicate GroupOk(s: string, g: nat)
    requires |s| == 17 && g < 6
  {
    && IsHexDigit(s[3 * g]) && IsHexDigit(s[3 * g + 1])
    && (g < 5 ==> s[3 * g + 2] == s[2])
  }

  /** Six hex pairs separated throughout by the same ':' or '-'. */
  predicate WellFormed48(s: string)
  {
    && |s| == 17
    && (s[2] == ':' || s[2] == '-')
    && forall g :: 0 <= g < 6 ==> GroupOk(s, g)
  }

  function GroupValue(s: string, g: nat): Octet
    requires |s| == 17 && g < 6
  {
    HexVal(s[3 * g]) * 16 + HexVal(s[3 * g + 1])
  }

  /** `net.ParseMAC` restricted to the EUI-48 forms. */
  function ParseMac48(s: string): (r: MacParse)
    ensures r.Parsed? <==> WellFormed48(s)
    ensures r.Parsed? ==> |r.addr| == 6
    ensures r.Invalid? ==> r.err.AddrError? && r.err.addr == s
  {
    if WellFormed48(s) then Parsed(seq(6, g requires 0 <= g < 6 => GroupValue(s, g)))
    else Invalid(AddrError("invalid MAC address", s))
  }

  lemma HexDigitValue(n: nat)
    requires n < 16
    ensures IsHexDigit(HexDigits[n]) && HexVal(HexDigits[n]) == n
  {
  }

  lemma {:induction false} AddrStringAt(a: seq<Octet>, g: nat)
    requires g < |a|
    ensures AddrString(a)[3 * g] == Hex2(a[g])[0]
    ensures AddrString(a)[3 * g + 1] == Hex2(a[g])[1]
    ensures g < |a| - 1 ==> AddrString(a)[3 * g + 2] == ':'
    decreases |a|
  {
    if g > 0 {
      AddrStringAt(a[1..], g - 1);
      assert AddrString(a) == Hex2(a[0]) + ":" + AddrString(a[1..]);
    }
  }

  /** Parsing what HardwareAddr.String prints gives the address back. */
  lemma ParsePrinted(a: seq<Octet>)
    requires |a| == 6
    ensures ParseMac48(AddrString(a)) == Parsed(a)
  {
    var s := AddrString(a);
    AddrStringAt(a, 0);
    forall g | 0 <= g < 6
      ensures GroupOk(s, g) && GroupValue(s, g) == a[g]
    {
      AddrStringAt(a, g);
      HexDigitValue(a[g] / 16);
      HexDigitValue(a[g] % 16);
    }
    assert WellFormed48(s);
    assert seq(6, g requires 0 <= g < 6 => GroupValue(s, g)) == a;
  }

  lemma HexValLower(c: char)
    ensures HexVal(LowerChar(c)) == HexVal(c)
    ensures IsHexDigit(LowerChar(c)) == IsHexDigit(c)
  {
  }

  /** Case does not matter to the parser: upper- and lower-case spellings give the same octets. */
  lemma ParseIgnoresCase(s: string)
    ensures ParseMac48(ToLower(s)).Parsed? == ParseMac48(s).Parsed?
    ensures ParseMac48(s).Parsed? ==> ParseMac48(ToLower(s)).addr == ParseMac48(s).addr
  {
    var t := ToLower(s);
    if |s| == 17 && (s[2] == ':' || s[2] == '-') {
      forall g | 0 <= g < 6
        ensures GroupOk(t, g) == GroupOk(s, g)
        ensures GroupValue(t, g) == GroupValue(s, g)
      {
        HexValLower(s[3 * g]);
        HexValLower(s[3 * g + 1]);
      }
      assert WellFormed48(t) == WellFormed48(s);
    } else if |s| == 17 {
      assert !WellFormed48(t);
    }
  }

  /** The colon spelling of an address, with every ':' written as '-'. */
  function Hyphenated(s: string): string
  {
    seq(|s|, i requires 0 <= i < |s| => if s[i] == ':' then '-' else s[i])
  }

  /** Colon and hyphen separators are interchangeable. */
  lemma ParseIgnoresSeparator(s: string)
    requires WellFormed48(s) && s[2] == ':'
    ensures ParseMac48(Hyphenated(s)) == ParseMac48(s)
  {
    var t := Hyphenated(s);
    forall g | 0 <= g < 6
      ensures GroupOk(t, g) && GroupValue(t, g) == GroupValue(s, g)
    {
      assert GroupOk(s, g);
    }
    assert WellFormed48(t);
    assert seq(6, g requires 0 <= g < 6 => GroupValue(t, g)) == seq(6, g requires 0 <= g < 6 => GroupValue(s, g));
  }

  /** Inputs that are not six separated hex pairs are rejected with an address error; in particular the
      parser does not accept separator-free text. */
  lemma ParseRejects()
    ensures ParseMac48("not-a-mac").Invalid?
    ensures ParseMac48("aabbcc112233").Invalid?
    ensures ParseMac48("").Invalid?
    ensures ParseMac48("aa:bb:cc-11:22:33").Invalid?
  {
    var s := "aa:bb:cc-11:22:33";
    assert !GroupOk(s, 2);
  }
}

=== FILE: lines.dfy ===
/**
 Line-by-line reading with `bufio.Reader.ReadBytes('\n')`: every complete line is delivered
 with a nil error, line feed included; whatever follows the last line feed is delivered
 together with the stream's final error (`io.EOF` or a read failure).
 */
module LineReader {
  import opened Text

  /** A complete line as ReadBytes returns it: ends with its only line feed. */
  predicate IsLine(l: string)
  {
    && |l| > 0
    && l[|l| - 1] == '\n'
    && forall n :: 0 <= n < |l| - 1 ==> l[n] != '\n'
  }

  predicate NoNewline(s: string)
  {
    forall n :: 0 <= n < |s| ==> s[n] != '\n'
  }

  /** The complete lines of s, in order: what the read loops see with a nil error. */
  function Lines(s: string): (ls: seq<string>)
    ensures forall i :: 0 <= i < |ls| ==> IsLine(ls[i])
    decreases |s|
  {
    var k := IndexFrom(s, '\n', 0);
    if k == |s| then [] else [s[..k + 1]] + Lines(s[k + 1..])
  }

  /** The unterminated remainder of s, delivered together with the final error. */
  function Tail(s: string): (t: string)
    ensures NoNewline(t)
    decreases |s|
  {
    var k := IndexFrom(s, '\n', 0);
    if k == |s| then s else Tail(s[k + 1..])
  }

  function Concat(ls: seq<string>): string
  {
    if |ls| == 0 then "" else ls[0] + Concat(ls[1..])
  }

  lemma {:induction false} ConcatSnoc(ls: seq<string>, x: string)
    ensures Concat(ls + [x]) == Concat(ls) + x
    decreases |ls|
  {
    if |ls| == 0 {
      assert ls + [x] == [x];
    } else {
      assert (ls + [x])[1..] == ls[1..] + [x];
      ConcatSnoc(ls[1..], x);
    }
  }

  lemma ConcatCons(x: string, ls: seq<string>)
    ensures Concat([x] + ls) == x + Concat(ls)
  {
    assert ([x] + ls)[1..] == ls;
  }

  lemma SplitFirstLine(s: string, k: nat)
    requires k == IndexFrom(s, '\n', 0) && k < |s|
    ensures Lines(s) == [s[..k + 1]] + Lines(s[k + 1..])
    ensures Tail(s) == Tail(s[k + 1..])
  {
    assert k != |s|;
    var rest := s[k + 1..];
    assert Lines(s) == [s[..k + 1]] + Lines(rest);
    assert Tail(s) == Tail(rest);
  }

  lemma NoLineFeed(s: string)
    requires IndexFrom(s, '\n', 0) == |s|
    ensures Concat(Lines(s)) + Tail(s) == s
  {
    assert Lines(s) == [] && Tail(s) == s;
  }

  lemma FirstLineThenRest(s: string, line: string, rest: string)
    requires s == line + rest
    requires Lines(s) == [line] + Lines(rest) && Tail(s) == Tail(rest)
    requires Concat(Lines(rest)) + Tail(rest) == rest
    ensures Concat(Lines(s)) + Tail(s) == s
  {
    ConcatCons(line, Lines(rest));
    Reassociate(line, Concat(Lines(rest)), Tail(rest));
  }

  /** Regrouping a concatenation. A lemma of its own keeps the caller's proof small: stated inline,
      the step sits among the caller's facts about Lines and costs the solver far more. */
  lemma Reassociate(a: string, b: string, c: string)
    ensures (a + b) + c == a + (b + c)
  {
  }

  /** Reading loses nothing: the complete lines followed by the tail spell the input. */
  lemma {:induction false} LinesThenTail(s: string)
    ensures Concat(Lines(s)) + Tail(s) == s
    decreases |s|
  {
    var k := IndexFrom(s, '\n', 0);
    if k < |s| {
      LinesThenTail(s[k + 1..]);
      SplitFirstLine(s, k);
      assert s == s[..k + 1] + s[k + 1..];
      FirstLineThenRest(s, s[..k + 1], s[k + 1..]);
    } else {
      NoLineFeed(s);
    }
  }

  /** Reading back what was written as complete lines gives exactly those lines, and the
      unterminated text after them as the tail. */
  lemma {:induction false} LinesOfConcat(ls: seq<string>, t: string)
    requires forall i :: 0 <= i < |ls| ==> IsLine(ls[i])
    requires NoNewline(t)
    ensures Lines(Concat(ls) + t) == ls
    ensures Tail(Concat(ls) + t) == t
    decreases |ls|
  {
    var s := Concat(ls) + t;
    if |ls| == 0 {
      assert s == t;
    } else {
      var l := ls[0];
      var rest := Concat(ls[1..]) + t;
      assert s == l + rest;
      assert forall n :: 0 <= n < |l| - 1 ==> s[n] != '\n';
      assert s[|l| - 1] == '\n';
      assert IndexFrom(s, '\n', 0) == |l| - 1;
      assert s[..|l|] == l;
      assert s[|l|..] == rest;
      LinesOfConcat(ls[1..], t);
    }
  }

  /** Appending one complete line to text that ends at a line boundary appends it to the lines read. */
  lemma LinesSnoc(s: string, l: string)
    requires Tail(s) == ""
    requires IsLine(l)
    ensures Lines(s + l) == Lines(s) + [l]
    ensures Tail(s + l) == ""
  {
    var ls := Lines(s);
    LinesThenTail(s);
    assert s == Concat(ls);
    ConcatSnoc(ls, l);
    assert s + l == Concat(ls + [l]) + "";
    LinesOfConcat(ls + [l], "");
  }

  /** Text after the last line feed never reaches the loops: the complete lines are unchanged by it. */
  lemma LinesIgnoreTail(s: string, frag: string)
    requires Tail(s) == ""
    requires NoNewline(frag)
    ensures Lines(s + frag) == Lines(s)
    ensures Tail(s + frag) == frag
  {
    LinesThenTail(s);
    assert s + frag == Concat(Lines(s)) + frag;
    LinesOfConcat(Lines(s), frag);
  }
}

=== FILE: mac2vendor.dfy ===
/**
 The library package (mac2vendor.go): `Load` fetches the IEEE registry into `/tmp/oui.txt` when
 the cache file is missing, `transform`s it into `<key>\t<vendor>` records, and reads the records
 back with `initCache`; `Query` and `Lookup` answer from the resulting table.

 The registry pattern here is `\s*([0-9a-zA-Z]+)[\s]*\(base 16\)[\s]*(.*)`, and keys are
 `strings.ToLower(delimit(prefix))`.
 */
module Mac2Vendor {
  import opened Base
  import opened Text
  import opened LineReader
  import opened KeyFormat
  import opened Pattern
  import opened HardwareAddr
  import opened CacheFile
  import opened Registry

  /** The default cache file name. */
  const Dat := "mac2vnd.dat"
  /** Where `Load` keeps the downloaded registry. */
  const OuiPath := "/tmp/oui.txt"

  /** The lookup table: key `xx:xx:xx` to vendor. */
  datatype Mac2Vendor = Mac2Vendor(mapping: map<string, string>)

  /** The (key, vendor) pairs `transform` writes for the matched lines: the key is
      `strings.ToLower(delimit(parts[1]))`, the vendor `parts[2]` as captured. */
  function Pairs(es: seq<Entry>): seq<(string, string)>
  {
    seq(|es|, i requires 0 <= i < |es| => (ToLower(Delimit(es[i].prefix)), es[i].vendor))
  }

  /** The converted pairs of a registry text. */
  function Entries(lines: seq<string>): seq<(string, string)>
  {
    Pairs(Matches(lines, AnyRest))
  }

  /** Every pair `transform` writes is one record line. */
  lemma EntriesWritable(lines: seq<string>)
    ensures forall i :: 0 <= i < |Entries(lines)| ==> Writable(Entries(lines)[i])
  {
    var es := Matches(lines, AnyRest);
    forall i | 0 <= i < |es|
      ensures Writable(Entries(lines)[i])
    {
      assert Captured(es[i], AnyRest);
      RegistryKey(es[i].prefix);
    }
  }

  /** The loop of `transform`: the text it leaves in the output file and the error it returns.
      Complete lines are converted as they arrive; the text delivered with `io.EOF` is not. */
  function Convert(src: Source): (r: (string, Option<Error>))
    ensures Tail(r.0) == "" && |Lines(r.0)| <= |Lines(src.data)|
    ensures r.1.None? <==> src.ending.Eof?
  {
    ConvertedLines(Lines(src.data));
    (Concat(Records(Entries(Lines(src.data)))), if src.ending.Eof? then None else Some(src.ending.err))
  }

  /** The output is the records themselves, one complete line each, and nothing after them. */
  lemma ConvertedLines(lines: seq<string>)
    ensures Lines(Concat(Records(Entries(lines)))) == Records(Entries(lines))
    ensures Tail(Concat(Records(Entries(lines)))) == ""
    ensures |Records(Entries(lines))| <= |lines|
  {
    var pairs := Entries(lines);
    var recs := Records(pairs);
    EntriesWritable(lines);
    forall i | 0 <= i < |recs|
      ensures IsLine(recs[i])
    {
      RecordReadsBack(pairs[i].0, pairs[i].1);
    }
    LinesOfConcat(recs, "");
    assert Concat(recs) + "" == Concat(recs);
  }

  /** One more matched line adds its pair at the end. */
  lemma PairsSnoc(es: seq<Entry>, e: Entry)
    ensures Pairs(es + [e]) == Pairs(es) + [(ToLower(Delimit(e.prefix)), e.vendor)]
  {
    assert forall i :: 0 <= i < |es| ==> (es + [e])[i] == es[i];
  }

  /** Each further complete line of the registry adds exactly one record when the pattern occurs in
      it, keyed `strings.ToLower(delimit(parts[1]))` and carrying `parts[2]`, and nothing otherwise. */
  lemma TransformAppendsLine(data: string, line: string)
    requires Tail(data) == "" && IsLine(line)
    ensures var e := Submatch(line, AnyRest);
      Convert(File(data + line)).0 ==
        Convert(File(data)).0 + (if e.Some? then Record(ToLower(Delimit(e.value.prefix)), e.value.vendor) else "")
  {
    LinesSnoc(data, line);
    var lines := Lines(data);
    var es := Matches(lines, AnyRest);
    MatchesSnoc(lines, line, AnyRest);
    var e := Submatch(line, AnyRest);
    if e.Some? {
      var kv := (ToLower(Delimit(e.value.prefix)), e.value.vendor);
      PairsSnoc(es, e.value);
      RecordsSnoc(Pairs(es), kv);
      ConcatSnoc(Records(Pairs(es)), Record(kv.0, kv.1));
    } else {
      assert Matches(lines + [line], AnyRest) == es;
    }
  }

  /** Reading back what `transform` wrote gives every converted line's key with its trimmed vendor,
      the last line for a key winning, whether or not the registry read ended in an error. */
  lemma TransformThenInitCache(src: Source)
    ensures InitCache(File(Convert(src).0)) == Loaded(Store(Trimmed(Entries(Lines(src.data)))))
  {
    EntriesWritable(Lines(src.data));
    RecordsReadBack(Entries(Lines(src.data)));
  }

  /** `downloadMacTable` (mac2vendor.go): skipped when dst exists; otherwise dst is created empty
      before the request is made, and filled with the response body whatever its status. */
  function DownloadMacTable(disk: Disk, dst: string, net: Fetch): (r: Effect)
    ensures r.fetched <==> dst !in disk
    ensures dst in r.disk
    ensures forall p :: p != dst ==> (p in r.disk <==> p in disk) && (p in disk ==> r.disk[p] == disk[p])
    ensures dst in disk ==> r.disk == disk && r.err.None?
    ensures dst !in disk && net.Unreachable? ==> r.disk[dst] == File("") && r.err.Some?
    ensures dst !in disk && net.Response? ==> r.disk[dst] == File(net.body.data)
    ensures dst !in disk && net.Response? ==> (r.err.None? <==> net.body.ending.Eof?)
  {
    if dst in disk then Effect(disk, false, None)
    else
      match net
      case Unreachable(_) => Effect(disk[dst := File("")], true, Some(Failure("downloading")))
      case Response(_, _, body) =>
        Effect(disk[dst := File(body.data)], true, if body.ending.Eof? then None else Some(Failure("downloading")))
  }

  /** `transform` (mac2vendor.go): nothing to do when dst exists; otherwise the records converted
      from src are written to dst, and a read error on src is returned after them. */
  function Transform(disk: Disk, src: string, dst: string): (r: (Disk, Option<Error>))
    ensures forall p :: p != dst ==> (p in r.0 <==> p in disk) && (p in disk ==> r.0[p] == disk[p])
    ensures dst in disk ==> r.0 == disk && r.1.None?
    ensures dst !in disk && src !in disk ==> r.0 == disk && r.1.Some?
    ensures dst !in disk && src in disk ==> dst in r.0 && r.0[dst] == File(Convert(disk[src]).0)
    ensures dst !in disk && src in disk ==> (r.1.None? <==> disk[src].ending.Eof?)
  {
    if dst in disk then (disk, None)
    else if src !in disk then (disk, Some(Failure("parsing")))
    else
      var out := Convert(disk[src]);
      (disk[dst := File(out.0)], out.1)
  }

  /** What `Load` leaves behind: the file system, whether the registry was requested, and the table
      or the error (or the panic of `initCache`). */
  datatype Loading = Loading(disk: Disk, fetched: bool, result: CacheResult)

  /** `Load(src)`: when the cache file is missing, download (unless `/tmp/oui.txt` is already there)
      and transform; then read the cache file. */
  function Load(disk: Disk, src: string, net: Fetch): (r: Loading)
    ensures src in disk ==> r == Loading(disk, false, InitCache(disk[src]))
    ensures r.fetched <==> src !in disk && OuiPath !in disk
    ensures r.result.Loaded? ==> src in r.disk
    ensures r.result.Loaded? ==> r.result == InitCache(r.disk[src])
  {
    if src in disk then Loading(disk, false, InitCache(disk[src]))
    else Build(src, DownloadMacTable(disk, OuiPath, net))
  }

  /** The rest of `Load` once the download step has had its effect: transform, then read. */
  function Build(src: string, d: Effect): (r: Loading)
    ensures r.fetched == d.fetched
    ensures d.err.Some? ==> r == Loading(d.disk, d.fetched, Failed(d.err.value))
    ensures r.result.Loaded? ==> src in r.disk
    ensures r.result.Loaded? ==> r.result == InitCache(r.disk[src])
  {
    if d.err.Some? then Loading(d.disk, d.fetched, Failed(d.err.value))
    else
      var t := Transform(d.disk, OuiPath, src);
      if t.1.Some? then Loading(t.0, d.fetched, Failed(t.1.value))
      else if src !in t.0 then Loading(t.0, d.fetched, Failed(Failure("load")))
      else Loading(t.0, d.fetched, InitCache(t.0[src]))
  }

  /** `downloadMacTable` in the order the later copies of it use: request first, and create dst only
      once a response has arrived. */
  function CorrectedDownload(disk: Disk, dst: string, net: Fetch): (r: Effect)
    ensures r.fetched <==> dst !in disk
    ensures forall p :: p != dst ==> (p in r.disk <==> p in disk) && (p in disk ==> r.disk[p] == disk[p])
    ensures net.Unreachable? ==> r.disk == disk
    ensures dst !in disk && net.Unreachable? ==> r.err.Some?
    ensures dst !in disk && net.Response? ==> r == DownloadMacTable(disk, dst, net)
  {
    if dst in disk then Effect(disk, false, None)
    else
      match net
      case Unreachable(_) => Effect(disk, true, Some(Failure("downloading")))
      case Response(_, _, body) =>
        Effect(disk[dst := File(body.data)], true, if body.ending.Eof? then None else Some(Failure("downloading")))
  }

  /** `Load` with the corrected download. */
  function CorrectedLoad(disk: Disk, src: string, net: Fetch): (r: Loading)
    ensures src in disk ==> r == Load(disk, src, net)
    ensures net.Response? ==> r == Load(disk, src, net)
    ensures r.fetched <==> src !in disk && OuiPath !in disk
    ensures r.result.Loaded? ==> src in r.disk && r.result == InitCache(r.disk[src])
  {
    if src in disk then Loading(disk, false, InitCache(disk[src]))
    else Build(src, CorrectedDownload(disk, OuiPath, net))
  }

  /** With the corrected order a failed request leaves nothing behind, and the next load asks again. */
  lemma CorrectedLoadRetries(disk: Disk, src: string, e: Error, net: Fetch)
    requires src !in disk && OuiPath !in disk
    ensures CorrectedLoad(disk, src, Unreachable(e)).disk == disk
    ensures CorrectedLoad(disk, src, Unreachable(e)).result.Failed?
    ensures CorrectedLoad(CorrectedLoad(disk, src, Unreachable(e)).disk, src, net).fetched
  {
  }

  /** The key `Query` looks up, `mac[:3].String()`: the delimited lower-case hex of the first three
      octets, the same shape `transform` gives a six-digit registry prefix. */
  function QueryKey(mac: Addr): (k: string)
    ensures k == Delimit(Hex2(mac[0]) + Hex2(mac[1]) + Hex2(mac[2]))
    ensures |k| == 8
  {
    var a := mac[..3];
    assert a[1..][1..] == [mac[2]];
    assert AddrString(a[1..][1..]) == Hex2(mac[2]);
    assert AddrString(a[1..]) == Hex2(mac[1]) + ":" + Hex2(mac[2]);
    assert AddrString(a) == Hex2(mac[0]) + ":" + (Hex2(mac[1]) + ":" + Hex2(mac[2]));
    var p := Hex2(mac[0]) + Hex2(mac[1]) + Hex2(mac[2]);
    assert p[..2] == Hex2(mac[0]) && p[2..4] == Hex2(mac[1]) && p[4..] == Hex2(mac[2]);
    AddrString(a)
  }

  /** `Query`: the vendor stored under `xx:xx:xx`, the lower-case hex of the address's first three
      octets, or "" when nothing is stored there. */
  function Query(m: Mac2Vendor, mac: Addr): (vendor: string)
    ensures var k := Delimit(Hex2(mac[0]) + Hex2(mac[1]) + Hex2(mac[2]));
      (k in m.mapping ==> vendor == m.mapping[k]) && (k !in m.mapping ==> vendor == "")
    ensures vendor != "" ==> vendor in m.mapping.Values
  {
    var key := QueryKey(mac);
    if key in m.mapping then m.mapping[key] else ""
  }

  /** `Lookup`: parse the text, then query. Only a parse failure is an error; an unregistered
      prefix is the empty vendor with a nil error. */
  function Lookup(m: Mac2Vendor, s: string, parse: string -> MacParse): (r: (string, Option<Error>))
    ensures r.1.Some? <==> parse(s).Invalid?
    ensures r.1.Some? ==> r.0 == "" && r.1.value == parse(s).err
    ensures r.1.None? ==> r.0 == Query(m, parse(s).addr)
  {
    match parse(s)
    case Invalid(e) => ("", Some(e))
    case Parsed(a) => (Query(m, a), None)
  }

  /** Only the first three octets of an address take part in a query. */
  lemma QueryReadsOui(m: Mac2Vendor, a: Addr, b: Addr)
    requires a[..3] == b[..3]
    ensures Query(m, a) == Query(m, b)
  {
  }

  lemma Hex2Chars(b: Octet)
    ensures ColonFree(Hex2(b))
    ensures ToLower(Hex2(b)) == Hex2(b)
  {
  }

  /** A registry prefix can only ever answer a query if it has exactly six characters, and then
      it answers for the addresses whose first three octets it spells, in either case. */
  lemma OnlySixDigitPrefixesResolve(prefix: string, mac: Addr)
    requires forall i :: 0 <= i < |prefix| ==> IsAlnum(prefix[i])
    requires ToLower(Delimit(prefix)) == QueryKey(mac)
    ensures |prefix| == 6
    ensures ToLower(prefix) == Hex2(mac[0]) + Hex2(mac[1]) + Hex2(mac[2])
  {
    var q := ToLower(prefix);
    var h := Hex2(mac[0]) + Hex2(mac[1]) + Hex2(mac[2]);
    DelimitLowerCommute(prefix);
    KeyLengthEight(q);
    Hex2Chars(mac[0]);
    Hex2Chars(mac[1]);
    Hex2Chars(mac[2]);
    assert ColonFree(q) by {
      forall i | 0 <= i < |q| ensures q[i] != ':' {
        assert IsAlnum(prefix[i]);
      }
    }
    DelimitInjective(q, h);
  }

  /** Conversely, a prefix that spells the address's first three octets, in either case, is
      converted to the address's query key. */
  lemma SpelledPrefixResolves(prefix: string, mac: Addr)
    requires ToLower(prefix) == Hex2(mac[0]) + Hex2(mac[1]) + Hex2(mac[2])
    ensures ToLower(Delimit(prefix)) == QueryKey(mac)
  {
    DelimitLowerCommute(prefix);
  }

  /** A registry line answers for an address exactly when its prefix spells the address's first
      three octets. */
  lemma PrefixKeyIff(prefix: string, mac: Addr)
    requires forall i :: 0 <= i < |prefix| ==> IsAlnum(prefix[i])
    ensures ToLower(Delimit(prefix)) == QueryKey(mac)
        <==> ToLower(prefix) == Hex2(mac[0]) + Hex2(mac[1]) + Hex2(mac[2])
  {
    if ToLower(Delimit(prefix)) == QueryKey(mac) {
      OnlySixDigitPrefixesResolve(prefix, mac);
    }
    if ToLower(prefix) == Hex2(mac[0]) + Hex2(mac[1]) + Hex2(mac[2]) {
      SpelledPrefixResolves(prefix, mac);
    }
  }

  /** A loaded table answers a query with the trimmed vendor of the last registry line whose key
      matches the address. */
  lemma RegisteredPrefixResolves(src: Source, mac: Addr, i: nat)
    requires var es := Entries(Lines(src.data));
      i < |es| && es[i].0 == QueryKey(mac) && forall j :: i < j < |es| ==> es[j].0 != es[i].0
    ensures InitCache(File(Convert(src).0)).Loaded?
    ensures Query(Mac2Vendor(InitCache(File(Convert(src).0)).mapping), mac)
              == TrimSpace(Entries(Lines(src.data))[i].1)
  {
    TransformThenInitCache(src);
    TableAt(Entries(Lines(src.data)), i);
  }

  /** The same, stated on the registry text: the last matched line whose prefix spells the
      address's first three octets gives the answer, its vendor trimmed. */
  lemma SpelledLineResolves(src: Source, mac: Addr, i: nat)
    requires var es := Matches(Lines(src.data), AnyRest);
      && i < |es|
      && ToLower(es[i].prefix) == Hex2(mac[0]) + Hex2(mac[1]) + Hex2(mac[2])
      && forall j :: i < j < |es| ==> ToLower(es[j].prefix) != Hex2(mac[0]) + Hex2(mac[1]) + Hex2(mac[2])
    ensures InitCache(File(Convert(src).0)).Loaded?
    ensures Query(Mac2Vendor(InitCache(File(Convert(src).0)).mapping), mac)
              == TrimSpace(Matches(Lines(src.data), AnyRest)[i].vendor)
  {
    var es := Matches(Lines(src.data), AnyRest);
    var ps := Entries(Lines(src.data));
    SpelledPrefixResolves(es[i].prefix, mac);
    forall j | i < j < |ps|
      ensures ps[j].0 != ps[i].0
    {
      assert Captured(es[j], AnyRest);
      PrefixKeyIff(es[j].prefix, mac);
    }
    RegisteredPrefixResolves(src, mac, i);
  }

  /** An address whose prefix no registry line converts to is answered with "" and no error. */
  lemma UnregisteredIsNotAnError(src: Source, s: string, parse: string -> MacParse)
    requires parse(s).Parsed?
    requires forall i :: 0 <= i < |Entries(Lines(src.data))| ==>
               Entries(Lines(src.data))[i].0 != QueryKey(parse(s).addr)
    ensures InitCache(File(Convert(src).0)).Loaded?
    ensures Lookup(Mac2Vendor(InitCache(File(Convert(src).0)).mapping), s, parse) == ("", None)
  {
    TransformThenInitCache(src);
    TableMisses(Entries(Lines(src.data)), QueryKey(parse(s).addr));
  }

  /** The separator an address is written with does not change the answer. */
  lemma LookupIgnoresSeparator(m: Mac2Vendor, s: string)
    requires WellFormed48(s) && s[2] == ':'
    ensures Lookup(m, Hyphenated(s), ParseMac48) == Lookup(m, s, ParseMac48)
  {
    ParseIgnoresSeparator(s);
  }

  /** Text that is not an address is an address error naming the text. */
  lemma LookupRejectsMalformed(m: Mac2Vendor, s: string)
    requires !WellFormed48(s)
    ensures Lookup(m, s, ParseMac48) == ("", Some(AddrError("invalid MAC address", s)))
  {
  }

  /** With a cache file present nothing is downloaded or rewritten: the file is read as it is. */
  lemma LoadSkipsWhenPresent(disk: Disk, src: string, net: Fetch)
    requires src in disk
    ensures Load(disk, src, net) == Loading(disk, false, InitCache(disk[src]))
  {
  }

  /** From an empty cache the registry is fetched, and its body is used whatever the HTTP status:
      the table holds exactly what the body's complete lines convert to. */
  lemma LoadIgnoresStatus(disk: Disk, src: string, status: int, line: string, body: string)
    requires src !in disk && OuiPath !in disk && src != OuiPath
    ensures var r := Load(disk, src, Response(status, line, File(body)));
      && r.fetched
      && r.disk == disk[OuiPath := File(body)][src := File(Convert(File(body)).0)]
      && r.result == Loaded(Store(Trimmed(Entries(Lines(body)))))
  {
    TransformThenInitCache(File(body));
  }

  /** A failed request leaves an empty `/tmp/oui.txt` behind; the next `Load` takes it for the
      registry, requests nothing, and ends with an empty table. */
  lemma UnreachableRegistryPoisonsNextLoad(disk: Disk, src: string, e: Error, net: Fetch)
    requires src !in disk && OuiPath !in disk && src != OuiPath
    ensures Load(disk, src, Unreachable(e)).result.Failed?
    ensures var again := Load(Load(disk, src, Unreachable(e)).disk, src, net);
      !again.fetched && again.result == Loaded(map[])
  {
    var d1 := Load(disk, src, Unreachable(e)).disk;
    assert d1 == disk[OuiPath := File("")];
    assert Lines("") == [];
    assert Entries([]) == [];
  }

  /** A registry read that fails part-way still leaves the records converted so far as the cache
      file; a later `Load` serves that partial table without fetching again. */
  lemma InterruptedTransformPersists(disk: Disk, src: string, data: string, e: Error, net: Fetch)
    requires src !in disk && src != OuiPath
    requires OuiPath in disk && disk[OuiPath] == Source(data, Broken(e))
    ensures Load(disk, src, net).result == Failed(e)
    ensures var again := Load(Load(disk, src, net).disk, src, net);
      !again.fetched && again.result == Loaded(Store(Trimmed(Entries(Lines(data)))))
  {
    TransformThenInitCache(Source(data, Broken(e)));
  }
}

=== FILE: pattern.dfy ===
/**
 The registry line pattern of all three loaders,
     \s*([0-9a-zA-Z]+)[\s]*\(base 16\)[\s]*(CAPTURE)
 with CAPTURE one of `.*` (mac2vendor.go), `[^\r\n]+` (actions/update.go) and
 `[^\r]+` (cmd/cli/mac2vendor/update.go). The Go code searches the line with
 `regexp.Match` and `FindStringSubmatch`, which are unanchored and leftmost-first:
 the match begins as early as possible and, from that start, each quantifier takes
 the choice a backtracking matcher tries first (greedy: the longest).

 IsMatch says what a match is; Find is a small hand-written matcher whose contract
 says it returns exactly the match the Go regexp reports.
 */
module Pattern {
  import opened Base
  import opened Text

  const Marker := "(base 16)"

  datatype Class = Space | Alnum | NotNewline | NotCrLf | NotCr

  predicate InClass(c: char, k: Class)
  {
    match k
    case Space => IsRegexSpace(c)
    case Alnum => IsAlnum(c)
    case NotNewline => c != '\n'
    case NotCrLf => c != '\r' && c != '\n'
    case NotCr => c != '\r'
  }

  /** The vendor capture group: its character class, and whether it is `+` (true) or `*` (false). */
  datatype Capture = Capture(cls: Class, nonEmpty: bool)

  /** `(.*)` of mac2vendor.go: `.` is any character but a line feed. */
  const AnyRest := Capture(NotNewline, false)
  /** `([^\r\n]+)` of actions/update.go. */
  const NoCrLf := Capture(NotCrLf, true)
  /** `([^\r]+)` of cmd/cli/mac2vendor/update.go. */
  const NoCr := Capture(NotCr, true)

  /** s[i..j] is a run of characters of class k. */
  predicate AllIn(s: string, i: int, j: int, k: Class)
  {
    && 0 <= i <= j <= |s|
    && forall n :: i <= n < j ==> InClass(s[n], k)
  }

  /** End of the longest run of class k starting at i. */
  function RunEnd(s: string, i: nat, k: Class): (j: nat)
    requires i <= |s|
    ensures AllIn(s, i, j, k)
    ensures j == |s| || !InClass(s[j], k)
    decreases |s| - i
  {
    if i < |s| && InClass(s[i], k) then RunEnd(s, i + 1, k) else i
  }

  /** A run that cannot be extended is the longest one. */
  lemma RunEndUnique(s: string, i: nat, j: nat, k: Class)
    requires i <= |s|
    requires AllIn(s, i, j, k)
    requires j == |s| || !InClass(s[j], k)
    ensures RunEnd(s, i, k) == j
  {
  }

  /** Positions of one way the pattern can match: the whole match starts at `start`,
      group 1 is s[keyStart..keyEnd], the marker begins at `marker`, group 2 is s[restStart..restEnd]. */
  datatype Span = Span(start: nat, keyStart: nat, keyEnd: nat, marker: nat, restStart: nat, restEnd: nat)

  predicate MarkerAt(s: string, m: nat)
  {
    m + |Marker| <= |s| && s[m..m + |Marker|] == Marker
  }

  /** sp is a decomposition of (part of) s that the pattern with capture cap accepts. */
  predicate IsMatch(s: string, cap: Capture, sp: Span)
  {
    && sp.start <= sp.keyStart < sp.keyEnd <= sp.marker
    && MarkerAt(s, sp.marker)
    && sp.marker + |Marker| <= sp.restStart <= sp.restEnd <= |s|
    && AllIn(s, sp.start, sp.keyStart, Space)
    && AllIn(s, sp.keyStart, sp.keyEnd, Alnum)
    && AllIn(s, sp.keyEnd, sp.marker, Space)
    && AllIn(s, sp.marker + |Marker|, sp.restStart, Space)
    && AllIn(s, sp.restStart, sp.restEnd, cap.cls)
    && (cap.nonEmpty ==> sp.restStart < sp.restEnd)
  }

  /** Among matches from one start, the order in which a backtracking matcher tries them:
      the quantifiers in pattern order, each preferring the longer run. */
  predicate Preferred(a: Span, b: Span)
  {
    || a.keyStart > b.keyStart
    || (a.keyStart == b.keyStart && a.keyEnd > b.keyEnd)
    || (a.keyStart == b.keyStart && a.keyEnd == b.keyEnd && a.marker > b.marker)
    || (a.keyStart == b.keyStart && a.keyEnd == b.keyEnd && a.marker == b.marker && a.restStart > b.restStart)
    || (a.keyStart == b.keyStart && a.keyEnd == b.keyEnd && a.marker == b.marker && a.restStart == b.restStart
        && a.restEnd >= b.restEnd)
  }

  /** Leftmost-first: a starts earlier than b, or at the same place and is tried no later. */
  predicate Beats(a: Span, b: Span)
  {
    a.start < b.start || (a.start == b.start && Preferred(a, b))
  }

  /** Whether the capture can begin at position k. */
  predicate Viable(s: string, cap: Capture, k: nat)
    requires k <= |s|
  {
    !cap.nonEmpty || (k < |s| && InClass(s[k], cap.cls))
  }

  /** The largest position in lo..k where the capture can begin: the greedy `[\s]*` before it gives back
      white space one character at a time until the capture fits. */
  function LastViable(s: string, cap: Capture, lo: nat, k: nat): (r: Option<nat>)
    requires lo <= k <= |s|
    ensures r.Some? ==> lo <= r.value <= k && Viable(s, cap, r.value)
    ensures r.Some? ==> forall n :: r.value < n <= k ==> !Viable(s, cap, n)
    ensures r.None? ==> forall n :: lo <= n <= k ==> !Viable(s, cap, n)
    decreases k - lo
  {
    if Viable(s, cap, k) then Some(k)
    else if k == lo then None
    else LastViable(s, cap, lo, k - 1)
  }

  /** The match a backtracking matcher finds when it starts at `start`, if any. */
  function MatchAt(s: string, cap: Capture, start: nat): (r: Option<Span>)
    requires start <= |s|
    ensures r.Some? ==> r.value.start == start && IsMatch(s, cap, r.value)
  {
    var ks := RunEnd(s, start, Space);
    var ke := RunEnd(s, ks, Alnum);
    var mk := RunEnd(s, ke, Space);
    if ke == ks || !MarkerAt(s, mk) then None
    else
      var lo := mk + |Marker|;
      var hi := RunEnd(s, lo, Space);
      match LastViable(s, cap, lo, hi)
      case None => None
      case Some(rs) => Some(Span(start, ks, ke, mk, rs, RunEnd(s, rs, cap.cls)))
  }

  lemma MarkerOpens(s: string, m: nat)
    requires MarkerAt(s, m)
    ensures s[m] == '('
  {
    assert s[m] == s[m..m + |Marker|][0];
  }

  /** In any match, the white space before group 1, group 1 itself and the white space before the
      marker are longest runs: a backtracking matcher has no other choice for them. */
  lemma MatchHeadForced(s: string, cap: Capture, sp: Span)
    requires IsMatch(s, cap, sp)
    ensures RunEnd(s, sp.start, Space) == sp.keyStart
    ensures RunEnd(s, sp.keyStart, Alnum) == sp.keyEnd
    ensures RunEnd(s, sp.keyEnd, Space) == sp.marker
  {
    MarkerOpens(s, sp.marker);
    assert IsAlnum(s[sp.keyStart]);
    RunEndUnique(s, sp.start, sp.keyStart, Space);
    RunEndUnique(s, sp.keyStart, sp.keyEnd, Alnum);
    RunEndUnique(s, sp.keyEnd, sp.marker, Space);
  }

  /** MatchAt finds a match from `start` whenever there is one, and the one a backtracking matcher
      tries first: group 1 and the marker position are forced, the rest is greedy. */
  lemma MatchAtIsPreferred(s: string, cap: Capture, sp: Span)
    requires IsMatch(s, cap, sp)
    ensures MatchAt(s, cap, sp.start).Some?
    ensures Preferred(MatchAt(s, cap, sp.start).value, sp)
  {
    MatchHeadForced(s, cap, sp);
    var lo := sp.marker + |Marker|;
    var hi := RunEnd(s, lo, Space);
    assert sp.restStart <= hi;
    assert Viable(s, cap, sp.restStart);
    var lv := LastViable(s, cap, lo, hi);
    assert lv.Some? && sp.restStart <= lv.value;
    if lv.value == sp.restStart {
      assert sp.restEnd <= RunEnd(s, sp.restStart, cap.cls);
    }
  }

  /** Tries every start from p on, earliest first. */
  function FindFrom(s: string, cap: Capture, p: nat): Option<Span>
    requires p <= |s|
    decreases |s| - p
  {
    var m := MatchAt(s, cap, p);
    if m.Some? then m
    else if p == |s| then None
    else FindFrom(s, cap, p + 1)
  }

  /** `pattern.Match(line)` together with the positions behind `pattern.FindStringSubmatch(line)`:
      a match is reported exactly when the pattern occurs in s, and then the one Go's leftmost-first
      regexp reports: it starts earliest, and from that start every quantifier is as greedy as it can be. */
  function Find(s: string, cap: Capture): (r: Option<Span>)
    ensures r.Some? ==> IsMatch(s, cap, r.value)
    ensures r.Some? ==> forall sp :: IsMatch(s, cap, sp) ==> Beats(r.value, sp)
    ensures r.None? <==> forall sp :: !IsMatch(s, cap, sp)
  {
    FindFromIsLeftmostFirst(s, cap, 0);
    FindFrom(s, cap, 0)
  }

  lemma {:induction false} FindFromIsLeftmostFirst(s: string, cap: Capture, p: nat)
    requires p <= |s|
    ensures FindFrom(s, cap, p).Some? ==> IsMatch(s, cap, FindFrom(s, cap, p).value)
    ensures FindFrom(s, cap, p).Some? ==> MatchAt(s, cap, FindFrom(s, cap, p).value.start) == FindFrom(s, cap, p)
    ensures FindFrom(s, cap, p).Some? ==>
              forall sp :: IsMatch(s, cap, sp) && sp.start >= p ==> Beats(FindFrom(s, cap, p).value, sp)
    ensures FindFrom(s, cap, p).None? ==> forall sp :: IsMatch(s, cap, sp) ==> sp.start < p
    decreases |s| - p
  {
    if MatchAt(s, cap, p).Some? {
      MatchHereBeatsLater(s, cap, p);
    } else {
      NoMatchHere(s, cap, p);
      if p < |s| {
        FindFromIsLeftmostFirst(s, cap, p + 1);
      }
    }
  }

  /** A match found at p is preferred over every match starting at p or later. */
  lemma MatchHereBeatsLater(s: string, cap: Capture, p: nat)
    requires p <= |s| && MatchAt(s, cap, p).Some?
    ensures forall sp :: IsMatch(s, cap, sp) && sp.start >= p ==> Beats(MatchAt(s, cap, p).value, sp)
  {
    forall sp | IsMatch(s, cap, sp) && sp.start >= p
      ensures Beats(MatchAt(s, cap, p).value, sp)
    {
      if sp.start == p {
        MatchAtIsPreferred(s, cap, sp);
      }
    }
  }

  /** When no match is found at p, no match starts there. */
  lemma NoMatchHere(s: string, cap: Capture, p: nat)
    requires p <= |s| && MatchAt(s, cap, p).None?
    ensures forall sp :: IsMatch(s, cap, sp) ==> sp.start != p
  {
    forall sp | IsMatch(s, cap, sp) && sp.start == p
      ensures false
    {
      MatchAtIsPreferred(s, cap, sp);
    }
  }

  /** The two submatches of a matching registry line: parts[1] and parts[2]. */
  datatype Entry = Entry(prefix: string, vendor: string)

  /** `if pattern.Match(line) { parts := pattern.FindStringSubmatch(line) ... }`: the submatches of the
      reported match, or None for a line the pattern does not occur in. */
  function Submatch(s: string, cap: Capture): (r: Option<Entry>)
    ensures r.None? <==> forall sp :: !IsMatch(s, cap, sp)
    ensures r.Some? ==> |r.value.prefix| > 0 && forall i :: 0 <= i < |r.value.prefix| ==> IsAlnum(r.value.prefix[i])
    ensures r.Some? ==> forall i :: 0 <= i < |r.value.vendor| ==> InClass(r.value.vendor[i], cap.cls)
    ensures r.Some? && cap.nonEmpty ==> |r.value.vendor| > 0
    ensures r.Some? ==> exists sp :: IsMatch(s, cap, sp) && (forall sp' :: IsMatch(s, cap, sp') ==> Beats(sp, sp'))
                                     && r.value == Entry(s[sp.keyStart..sp.keyEnd], s[sp.restStart..sp.restEnd])
  {
    match Find(s, cap)
    case None => None
    case Some(sp) =>
      SpanSlices(s, cap, sp);
      Some(Entry(s[sp.keyStart..sp.keyEnd], s[sp.restStart..sp.restEnd]))
  }

  /** The groups of a match hold what their classes allow. */
  lemma SpanSlices(s: string, cap: Capture, sp: Span)
    requires IsMatch(s, cap, sp)
    ensures sp.keyStart < sp.keyEnd <= |s| && sp.restStart <= sp.restEnd <= |s|
    ensures forall i :: 0 <= i < |s[sp.keyStart..sp.keyEnd]| ==> IsAlnum(s[sp.keyStart..sp.keyEnd][i])
    ensures forall i :: 0 <= i < |s[sp.restStart..sp.restEnd]| ==> InClass(s[sp.restStart..sp.restEnd][i], cap.cls)
    ensures cap.nonEmpty ==> |s[sp.restStart..sp.restEnd]| > 0
  {
    assert AllIn(s, sp.keyStart, sp.keyEnd, Alnum);
    assert AllIn(s, sp.restStart, sp.restEnd, cap.cls);
  }

  /** With `(.*)` the vendor starts at the first character after the marker that is not white space
      and runs to the line feed (or the end of the text). */
  lemma AnyRestSkipsSpace(s: string, sp: Span)
    requires Find(s, AnyRest) == Some(sp)
    ensures IsMatch(s, AnyRest, sp)
    ensures sp.restStart == RunEnd(s, sp.marker + |Marker|, Space)
    ensures sp.restEnd == RunEnd(s, sp.restStart, NotNewline)
  {
    var hi := RunEnd(s, sp.marker + |Marker|, Space);
    var alt := sp.(restStart := hi, restEnd := RunEnd(s, hi, NotNewline));
    assert IsMatch(s, AnyRest, alt);
    assert Beats(sp, alt);
    RunEndUnique(s, sp.marker + |Marker|, sp.restStart, Space);
    var alt2 := sp.(restEnd := RunEnd(s, sp.restStart, NotNewline));
    assert IsMatch(s, AnyRest, alt2);
    assert Beats(sp, alt2);
  }

  /** In lead + Marker + tail, with no opening parenthesis in lead or tail, every match uses that marker. */
  lemma OnlyMarker(lead: string, tail: string, cap: Capture, sp: Span)
    requires forall i :: 0 <= i < |lead| ==> lead[i] != '('
    requires forall i :: 0 <= i < |tail| ==> tail[i] != '('
    requires IsMatch(lead + Marker + tail, cap, sp)
    ensures sp.marker == |lead|
  {
    var s := lead + Marker + tail;
    MarkerOpens(s, sp.marker);
  }

  lemma AfterMarker(lead: string, tail: string, i: nat)
    requires |lead| + |Marker| <= i < |lead + Marker + tail|
    ensures (lead + Marker + tail)[i] == tail[i - |lead| - |Marker|]
  {
  }

  /** With `([^\r\n]+)` a line that has nothing but line-ending characters after `(base 16)` gives no record. */
  lemma BareMarkerNoCrLf(lead: string, tail: string)
    requires forall i :: 0 <= i < |lead| ==> lead[i] != '('
    requires forall i :: 0 <= i < |tail| ==> tail[i] == '\r' || tail[i] == '\n'
    ensures Submatch(lead + Marker + tail, NoCrLf).None?
  {
    var s := lead + Marker + tail;
    forall sp | IsMatch(s, NoCrLf, sp)
      ensures false
    {
      OnlyMarker(lead, tail, NoCrLf, sp);
      AfterMarker(lead, tail, sp.restStart);
    }
  }

  /** With `([^\r]+)` the same bare line still matches when its key does: the white space before the
      capture gives back the line feed, which becomes the whole vendor. */
  lemma BareMarkerNoCr(lead: string, tail: string)
    requires forall i :: 0 <= i < |lead| ==> lead[i] != '('
    requires tail == "\n" || tail == "\r\n"
    requires Find(lead + Marker + tail, NoCr).Some?
    ensures Submatch(lead + Marker + tail, NoCr).value.vendor == "\n"
  {
    var s := lead + Marker + tail;
    var sp := Find(s, NoCr).value;
    BareMarkerSpan(lead, tail, sp);
    assert s[sp.restStart..sp.restEnd] == [s[|s| - 1]];
  }

  lemma BareMarkerSpan(lead: string, tail: string, sp: Span)
    requires forall i :: 0 <= i < |lead| ==> lead[i] != '('
    requires tail == "\n" || tail == "\r\n"
    requires Find(lead + Marker + tail, NoCr) == Some(sp)
    ensures sp.restStart == |lead + Marker + tail| - 1 && sp.restEnd == |lead + Marker + tail|
    ensures (lead + Marker + tail)[|lead + Marker + tail| - 1] == '\n'
  {
    BareMarkerMatch(lead, tail, sp);
  }

  /** Every match of a bare `(base 16)` line ending in LF or CRLF captures its final line feed. */
  lemma BareMarkerMatch(lead: string, tail: string, sp: Span)
    requires forall i :: 0 <= i < |lead| ==> lead[i] != '('
    requires tail == "\n" || tail == "\r\n"
    requires IsMatch(lead + Marker + tail, NoCr, sp)
    ensures sp.restStart == |lead + Marker + tail| - 1 && sp.restEnd == |lead + Marker + tail|
    ensures (lead + Marker + tail)[|lead + Marker + tail| - 1] == '\n'
  {
    var s := lead + Marker + tail;
    OnlyMarker(lead, tail, NoCr, sp);
    AfterMarker(lead, tail, |s| - 1);
    if tail == "\r\n" {
      AfterMarker(lead, tail, |s| - 2);
    }
    BareMarkerVendorPosition(s, |tail|, sp);
  }

  lemma BareMarkerVendorPosition(s: string, t: nat, sp: Span)
    requires IsMatch(s, NoCr, sp)
    requires t == 1 || t == 2
    requires sp.marker + |Marker| + t == |s|
    requires s[|s| - 1] == '\n'
    requires t == 2 ==> s[|s| - 2] == '\r'
    ensures sp.restStart == |s| - 1 && sp.restEnd == |s|
  {
  }

  /** With `([^\r]+)` on a line without carriage returns, the vendor runs to the end of the line. */
  lemma NoCrKeepsRest(s: string)
    requires forall i :: 0 <= i < |s| ==> s[i] != '\r'
    requires Find(s, NoCr).Some?
    ensures Find(s, NoCr).value.restEnd == |s|
    ensures Find(s, NoCr).value.restStart < |s|
    ensures Submatch(s, NoCr).value.vendor == s[Find(s, NoCr).value.restStart..]
  {
    var sp := Find(s, NoCr).value;
    var alt := sp.(restEnd := |s|);
    assert IsMatch(s, NoCr, alt);
    assert Beats(sp, alt);
  }
}

=== FILE: registry.dfy ===
/**
 The part the three registry transforms share: reading the IEEE `oui.txt` text line by line,
 keeping the submatches of the lines the pattern occurs in, and filing each under a key built
 from its prefix.
 */
module Registry {
  import opened Base
  import opened Text
  import opened LineReader
  import opened KeyFormat
  import opened Pattern
  import opened CacheFile

  /** What the capture groups can hold: a non-empty alphanumeric prefix, and a vendor drawn from
      the vendor group's class, non-empty when the group is `+`. */
  predicate Captured(e: Entry, cap: Capture)
  {
    && |e.prefix| > 0
    && (forall n :: 0 <= n < |e.prefix| ==> IsAlnum(e.prefix[n]))
    && (forall n :: 0 <= n < |e.vendor| ==> InClass(e.vendor[n], cap.cls))
    && (cap.nonEmpty ==> |e.vendor| > 0)
  }

  /** The submatches of the complete lines the pattern occurs in, in reading order: what the body of
      each transform loop acts on. */
  function Matches(lines: seq<string>, cap: Capture): (es: seq<Entry>)
    ensures |es| <= |lines|
    ensures forall i :: 0 <= i < |es| ==> Captured(es[i], cap)
    decreases |lines|
  {
    if |lines| == 0 then []
    else
      var n := |lines| - 1;
      match Submatch(lines[n], cap)
      case None => Matches(lines[..n], cap)
      case Some(e) => Matches(lines[..n], cap) + [e]
  }

  /** A line the pattern does not occur in adds nothing; one it occurs in adds its submatches. */
  lemma MatchesSnoc(lines: seq<string>, line: string, cap: Capture)
    ensures Matches(lines + [line], cap) ==
              Matches(lines, cap) + (if Submatch(line, cap).Some? then [Submatch(line, cap).value] else [])
  {
    assert (lines + [line])[..|lines|] == lines;
  }

  /** The registry text after its last line feed is never converted: the reader hands it over
      together with `io.EOF`, and the loops stop there. */
  lemma UnterminatedLineDropped(data: string, frag: string, cap: Capture)
    requires Tail(data) == ""
    requires '\n' !in frag
    ensures Matches(Lines(data + frag), cap) == Matches(Lines(data), cap)
  {
    LinesIgnoreTail(data, frag);
  }

  /** A key as the transforms build it: lower-case letters, digits and colons only. */
  predicate KeyChars(key: string)
  {
    forall i :: 0 <= i < |key| ==> ('a' <= key[i] <= 'z') || ('0' <= key[i] <= '9') || key[i] == ':'
  }

  /** Each (key, vendor) pair written makes one record line: no tab or line feed in the key, no line
      feed in the vendor. */
  predicate Writable(kv: (string, string))
  {
    && KeyChars(kv.0) && Tab !in kv.0 && '\n' !in kv.0
    && '\n' !in kv.1
  }

  /** `strings.ToLower(delimit(p))` and `delimit(strings.ToLower(p))` are the same key, and for an
      alphanumeric prefix it is made of lower-case letters, digits and colons. */
  lemma RegistryKey(p: string)
    requires forall n :: 0 <= n < |p| ==> IsAlnum(p[n])
    ensures ToLower(Delimit(p)) == Delimit(ToLower(p))
    ensures KeyChars(Delimit(ToLower(p)))
  {
    DelimitLowerCommute(p);
    KeyAlphabet(p);
  }

  /** A captured prefix, keyed either way, with a vendor free of line feeds makes one record line. */
  lemma KeyWritable(p: string, vendor: string)
    requires forall n :: 0 <= n < |p| ==> IsAlnum(p[n])
    requires '\n' !in vendor
    ensures Writable((ToLower(Delimit(p)), vendor))
    ensures Writable((Delimit(ToLower(p)), vendor))
  {
    RegistryKey(p);
    var key := Delimit(ToLower(p));
    assert Tab !in key && '\n' !in key by {
      forall n | 0 <= n < |key| ensures key[n] != Tab && key[n] != '\n' {
        assert KeyChars(key);
      }
    }
  }

  /** The records written for some pairs. */
  function Records(pairs: seq<(string, string)>): seq<string>
  {
    seq(|pairs|, i requires 0 <= i < |pairs| => Record(pairs[i].0, pairs[i].1))
  }

  /** One more pair adds its record at the end. */
  lemma RecordsSnoc(pairs: seq<(string, string)>, kv: (string, string))
    ensures Records(pairs + [kv]) == Records(pairs) + [Record(kv.0, kv.1)]
  {
    assert forall i :: 0 <= i < |pairs| ==> (pairs + [kv])[i] == pairs[i];
  }

  /** The pairs as `initCache` stores them: vendor trimmed. */
  function Trimmed(pairs: seq<(string, string)>): seq<(string, string)>
  {
    seq(|pairs|, i requires 0 <= i < |pairs| => (pairs[i].0, TrimSpace(pairs[i].1)))
  }

  /** Reading back the records of writable pairs gives the pairs with their vendors trimmed, the last
      pair for a key winning. */
  lemma RecordsReadBack(pairs: seq<(string, string)>)
    requires forall i :: 0 <= i < |pairs| ==> Writable(pairs[i])
    ensures InitCache(File(Concat(Records(pairs)))) == Loaded(Store(Trimmed(pairs)))
  {
    ReadRecords(pairs, Records(pairs), Trimmed(pairs));
  }

  /** The stored value of the last pair for a key is that pair's trimmed vendor. */
  lemma TableAt(pairs: seq<(string, string)>, i: nat)
    requires i < |pairs| && forall j :: i < j < |pairs| ==> pairs[j].0 != pairs[i].0
    ensures pairs[i].0 in Store(Trimmed(pairs)) && Store(Trimmed(pairs))[pairs[i].0] == TrimSpace(pairs[i].1)
  {
    var ts := Trimmed(pairs);
    StoreLastWins(ts);
    assert forall j :: i < j < |ts| ==> ts[j].0 != ts[i].0;
  }

  /** A key no pair carries is not in the table. */
  lemma TableMisses(pairs: seq<(string, string)>, key: string)
    requires forall i :: 0 <= i < |pairs| ==> pairs[i].0 != key
    ensures key !in Store(Trimmed(pairs))
  {
    StoreLastWins(Trimmed(pairs));
  }

  /** What a code-generating `transform` did: the file system afterwards, the text written to dst,
      the error returned, and the mapping handed to `generateMapping` (if it got that far). */
  datatype Transformed = Transformed(disk: Disk, written: string, err: Option<Error>, generated: Option<map<string, string>>)

  /** What a code-generating `load` left: the file system, whether the registry was requested,
      the error returned, and the mapping handed to `generateMapping`. */
  datatype Updated = Updated(disk: Disk, fetched: bool, err: Option<Error>, generated: Option<map<string, string>>)
}

=== FILE: serve.dfy ===
/**
 The web service of the command-line tool (actions/serve.go): `GET /<address>` answers with a JSON
 `Mac2Vnd` record. The lookup behind it and `json.Marshal` are parameters; ServeLibrary plugs in
 the library's Lookup with the EUI-48 parser.
 */
module ActionsServe {
  import opened Base
  import opened Http
  import opened HardwareAddr
  import Mac2Vendor

  /** The resource model; `Error` holds the error value itself, so its dynamic type survives. */
  datatype Mac2Vnd = Mac2Vnd(mac: string, vendor: string, error: Option<Error>)

  /** `newMac2Vnd`: an error record carries only the error; otherwise the address and vendor. */
  function NewMac2Vnd(mac: string, vendor: string, err: Option<Error>): (r: Mac2Vnd)
    ensures r.error == err
    ensures err.Some? ==> r.mac == "" && r.vendor == ""
    ensures err.None? ==> r.mac == mac && r.vendor == vendor
  {
    if err.Some? then Mac2Vnd("", "", err) else Mac2Vnd(mac, vendor, None)
  }

  /** A lookup: the vendor and the error it returns for an address text. */
  type Lookup = string -> (string, Option<Error>)

  /** `json.Marshal` of a record: its text, or the encoding error. */
  type Encoder = Mac2Vnd -> Result<string>

  /** What a request produced, and the address text handed to the lookup (None if none was made). */
  datatype Exchange = Exchange(reply: Reply, asked: Option<string>)

  /** The status an error record is sent with: 400 for `*net.AddrError`, 404 for anything else. */
  function ErrorStatus(e: Error): (code: int)
    ensures code == StatusBadRequest <==> e.AddrError?
    ensures code == StatusNotFound <==> !e.AddrError?
  {
    match e
    case AddrError(_, _) => StatusBadRequest
    case _ => StatusNotFound
  }

  /** The `lookup` handler. A request path without its leading slash panics at `r.URL.Path[1:]`. */
  function Handle(req: Request, lookup: Lookup, encode: Encoder): (x: Exchange)
    ensures req.verb != MethodGet ==> x == Exchange(HttpError("method not allowed", StatusMethodNotAllowed), None)
    ensures req.verb == MethodGet && |req.path| > 0 ==> x.asked == Some(req.path[1..])
    ensures x.reply.Crash? <==> req.verb == MethodGet && |req.path| == 0
  {
    if req.verb != MethodGet then Exchange(HttpError("method not allowed", StatusMethodNotAllowed), None)
    else if |req.path| == 0 then Exchange(Crash, None)
    else
      var mac := req.path[1..];
      var found := lookup(mac);
      var response := NewMac2Vnd(mac, found.0, found.1);
      var reply :=
        match encode(response)
        case Err(e) => HttpError(Message(e), StatusInternalServerError)
        case Ok(json) =>
          if response.error.Some? then HttpError(json, ErrorStatus(response.error.value))
          else Reply(StatusOK, ApplicationJson, json);
      Exchange(reply, Some(mac))
  }

  /** For a GET with an encodable record the status tells the outcome of the lookup: 200 exactly when
      it succeeded, 400 exactly when the address did not parse, 404 for any other error. The body is the
      record in every case. */
  lemma StatusClassification(req: Request, lookup: Lookup, encode: Encoder)
    requires req.verb == MethodGet && |req.path| > 0
    requires var found := lookup(req.path[1..]); encode(NewMac2Vnd(req.path[1..], found.0, found.1)).Ok?
    ensures var x := Handle(req, lookup, encode); var found := lookup(req.path[1..]);
      && x.reply.Reply?
      && (x.reply.status == StatusOK <==> found.1.None?)
      && (x.reply.status == StatusBadRequest <==> found.1.Some? && found.1.value.AddrError?)
      && (x.reply.status == StatusNotFound <==> found.1.Some? && !found.1.value.AddrError?)
      && (found.1.None? ==> x.reply == Reply(StatusOK, ApplicationJson, encode(NewMac2Vnd(req.path[1..], found.0, None)).value))
  {
  }

  /** A record that cannot be encoded is a 500 carrying the encoder's message. */
  lemma EncodeFailureIs500(req: Request, lookup: Lookup, encode: Encoder)
    requires req.verb == MethodGet && |req.path| > 0
    requires var found := lookup(req.path[1..]); encode(NewMac2Vnd(req.path[1..], found.0, found.1)).Err?
    ensures var found := lookup(req.path[1..]);
      Handle(req, lookup, encode).reply
        == HttpError(Message(encode(NewMac2Vnd(req.path[1..], found.0, found.1)).error), StatusInternalServerError)
  {
  }

  /** The service over a loaded library table, parsing addresses as EUI-48. */
  function ServeLibrary(m: Mac2Vendor.Mac2Vendor): Lookup
  {
    s => Mac2Vendor.Lookup(m, s, ParseMac48)
  }

  /** `GET /` asks for the empty address, which does not parse: 400. */
  lemma EmptyAddressIsBadRequest(m: Mac2Vendor.Mac2Vendor, encode: Encoder)
    requires encode(Mac2Vnd("", "", Some(AddrError("invalid MAC address", "")))).Ok?
    ensures Handle(Request(MethodGet, "/"), ServeLibrary(m), encode).reply.status == StatusBadRequest
  {
    assert "/"[1..] == "";
    HardwareAddr.ParseRejects();
  }

  /** A well-formed address whose prefix is not in the table is a success with an empty vendor. */
  lemma UnregisteredIsOk(m: Mac2Vendor.Mac2Vendor, s: string, encode: Encoder)
    requires WellFormed48(s)
    requires Mac2Vendor.QueryKey(ParseMac48(s).addr) !in m.mapping
    requires encode(Mac2Vnd(s, "", None)).Ok?
    ensures Handle(Request(MethodGet, "/" + s), ServeLibrary(m), encode).reply
              == Reply(StatusOK, ApplicationJson, encode(Mac2Vnd(s, "", None)).value)
  {
    assert ("/" + s)[1..] == s;
  }
}

=== FILE: text.dfy ===
/**
 Character classes and the few `strings` functions the registry code relies on.
 Strings are sequences of Unicode scalar values; the UTF-8 byte layout of Go strings is not modelled.
 */
module Text {

  /** Go RE2's `\s`: `[\t\n\f\r ]`. */
  predicate IsRegexSpace(c: char)
  {
    c == '\t' || c == '\n' || c == '\U{000C}' || c == '\r' || c == ' '
  }

  /** The class `[0-9a-zA-Z]`. */
  predicate IsAlnum(c: char)
  {
    ('0' <= c <= '9') || ('a' <= c <= 'z') || ('A' <= c <= 'Z')
  }

  predicate IsHexDigit(c: char)
  {
    ('0' <= c <= '9') || ('a' <= c <= 'f') || ('A' <= c <= 'F')
  }

  /** `unicode.IsSpace`, the test `strings.TrimSpace` trims by. */
  predicate IsSpace(c: char)
  {
    || c == '\t' || c == '\n' || c == '\U{000B}' || c == '\U{000C}' || c == '\r' || c == ' '
    || c == '\U{0085}' || c == '\U{00A0}' || c == '\U{1680}'
    || ('\U{2000}' <= c <= '\U{200A}')
    || c == '\U{2028}' || c == '\U{2029}' || c == '\U{202F}' || c == '\U{205F}' || c == '\U{3000}'
  }

  /** Position of the first c at or after i, or |s| when there is none. */
  function IndexFrom(s: string, c: char, i: nat): (k: nat)
    requires i <= |s|
    ensures i <= k <= |s|
    ensures forall n :: i <= n < k ==> s[n] != c
    ensures k < |s| ==> s[k] == c
    decreases |s| - i
  {
    if i == |s| || s[i] == c then i else IndexFrom(s, c, i + 1)
  }

  /** Lower-casing of one character, restricted to ASCII letters. */
  function LowerChar(c: char): (d: char)
    ensures 'A' <= c <= 'Z' ==> 'a' <= d <= 'z' && d as int - c as int == 32
    ensures !('A' <= c <= 'Z') ==> d == c
  {
    if 'A' <= c <= 'Z' then (c as int + 32) as char else c
  }

  /**
   * `strings.ToLower` on the ASCII text it is applied to here (registry prefixes and keys):
   * no upper-case letter survives, and only upper-case letters change, each to its own
   * lower-case form.
   */
  function ToLower(s: string): (r: string)
    ensures |r| == |s|
    ensures forall i :: 0 <= i < |r| ==> !('A' <= r[i] <= 'Z')
    ensures forall i :: 0 <= i < |s| && r[i] != s[i] ==> 'A' <= s[i] <= 'Z'
    ensures forall i :: 0 <= i < |s| && 'A' <= s[i] <= 'Z' ==> r[i] as int == s[i] as int + 32
  {
    seq(|s|, i requires 0 <= i < |s| => LowerChar(s[i]))
  }

  /** Lower-casing twice is lower-casing once. */
  lemma ToLowerIdempotent(s: string)
    ensures ToLower(ToLower(s)) == ToLower(s)
  {
    var r := ToLower(s);
    forall i | 0 <= i < |r|
      ensures ToLower(r)[i] == r[i]
    {
      assert !('A' <= r[i] <= 'Z');
    }
  }

  lemma ToLowerAppend(a: string, b: string)
    ensures ToLower(a + b) == ToLower(a) + ToLower(b)
  {
  }

  /** `strings.TrimLeftFunc(s, unicode.IsSpace)`. */
  function TrimLeft(s: string): (r: string)
    ensures |r| <= |s| && r == s[|s| - |r|..]
    ensures forall i :: 0 <= i < |s| - |r| ==> IsSpace(s[i])
    ensures |r| > 0 ==> !IsSpace(r[0])
  {
    if |s| > 0 && IsSpace(s[0]) then TrimLeft(s[1..]) else s
  }

  /** `strings.TrimRightFunc(s, unicode.IsSpace)`. */
  function TrimRight(s: string): (r: string)
    ensures |r| <= |s| && r == s[..|r|]
    ensures forall i :: |r| <= i < |s| ==> IsSpace(s[i])
    ensures |r| > 0 ==> !IsSpace(r[|r| - 1])
  {
    if |s| > 0 && IsSpace(s[|s| - 1]) then TrimRight(s[..|s| - 1]) else s
  }

  /** `strings.TrimSpace`: drops leading and trailing white space. The contract only bounds the result;
      TrimSpaceOf pins it down as exactly the text between the leading and the trailing white space. */
  function TrimSpace(s: string): (r: string)
    ensures |r| <= |s|
    ensures |r| > 0 ==> !IsSpace(r[0]) && !IsSpace(r[|r| - 1])
  {
    TrimLeft(TrimRight(s))
  }

  predicate AllSpace(s: string)
  {
    forall i :: 0 <= i < |s| ==> IsSpace(s[i])
  }

  lemma {:induction false} TrimLeftOf(lead: string, rest: string)
    requires AllSpace(lead)
    requires |rest| == 0 || !IsSpace(rest[0])
    ensures TrimLeft(lead + rest) == rest
    decreases |lead|
  {
    if |lead| > 0 {
      assert (lead + rest)[1..] == lead[1..] + rest;
      TrimLeftOf(lead[1..], rest);
    } else {
      assert lead + rest == rest;
    }
  }

  lemma {:induction false} TrimRightOf(rest: string, trail: string)
    requires AllSpace(trail)
    requires |rest| == 0 || !IsSpace(rest[|rest| - 1])
    ensures TrimRight(rest + trail) == rest
    decreases |trail|
  {
    if |trail| > 0 {
      assert (rest + trail)[..|rest + trail| - 1] == rest + trail[..|trail| - 1];
      TrimRightOf(rest, trail[..|trail| - 1]);
    } else {
      assert rest + trail == rest;
    }
  }

  /** TrimSpace removes exactly the white space around the text: whatever white space surrounds
      a string that starts and ends with non-space, TrimSpace gives that string back. */
  lemma TrimSpaceOf(lead: string, mid: string, trail: string)
    requires AllSpace(lead) && AllSpace(trail)
    requires |mid| > 0 ==> !IsSpace(mid[0]) && !IsSpace(mid[|mid| - 1])
    ensures TrimSpace(lead + mid + trail) == mid
  {
    if |mid| > 0 {
      TrimRightOf(lead + mid, trail);
      TrimLeftOf(lead, mid);
    } else {
      assert lead + mid + trail == lead + trail;
      TrimRightOfSpaces(lead + trail);
    }
  }

  lemma {:induction false} TrimRightOfSpaces(s: string)
    requires AllSpace(s)
    ensures TrimRight(s) == ""
    decreases |s|
  {
    if |s| > 0 {
      TrimRightOfSpaces(s[..|s| - 1]);
    }
  }

  /** A trailing white-space character, such as the line feed a record ends with, never survives TrimSpace. */
  lemma TrimSpaceDropsTrailingSpace(s: string, c: char)
    requires IsSpace(c)
    ensures TrimSpace(s + [c]) == TrimSpace(s)
  {
    assert (s + [c])[..|s + [c]| - 1] == s;
  }
}
